=== FILE: README.md ===
# ia_whisperer in Dafny

`ia_whisperer.py` walks an Internet Archive collection and makes subtitles
for its media files. A collection worker lists the item identifiers. Item
workers pick one media file per base name from each item, fetch it to a
scratch directory and charge a shared counter with its duration. File
workers then transcribe each fetched file, write `.txt` and `.vtt`
subtitles, release the charge and delete the scratch copy. Item workers
test the counter before each dequeue and wait while it holds more than a
day of media. The test and the dequeue are separate steps, so two workers
can both pass the test and dequeue after the limit is crossed.

This project models those rules as pure functions over immutable data and
proves what they guarantee:

- `Names` (`names.dfy`): FILE_REGEX written out as a lazy search for the
  shortest base that leaves a media tail, and SUBTITLE_REGEX as a suffix
  test. It proves the search is exactly the pattern, that the match is
  unique, a round trip from base, qualifier and extension back to the
  groups, and that subtitle names never match as media.
- `Selector` (`selector.dfy`): `item_files`. If any name is a subtitle,
  the result is empty. Otherwise there is one descriptor per base, built
  from the earliest smallest file of that base, with every base present,
  in order of first appearance. The loop is proved against this
  declarative selection.
- `Paths` (`paths.dfy`): `posixpath.join` and `posixpath.dirname`, and
  from them the download path, the subtitle paths and the item directory,
  with their collision and shape properties.
- `Buffer` (`buffer.dfy`): the charge, release and admission gate on the
  shared counter.
- `Acquisition` (`acquisition.dfy`): one turn of `item_processor`. That
  is the gate, the dequeue, the `'DONE'` stop token, the local-subtitle
  skip, and the fetch, charge and queue of each selected file.
- `Transcription` (`transcription.dfy`): one turn of `file_processor`,
  including its two crash paths.
- `Enumerator` (`enumerator.dfy`): the item queue `collection_processor`
  fills, and which items a pool of item workers actually serves from it.
- `Pipeline` (`pipeline.dfy`): all workers as one state machine whose
  steps are loop turns in any interleaving. It proves that the counter
  always equals the charge of the files waiting on the transcription queue
  plus the charge stranded by file workers that died.

The filesystem is a `set<string>` of existing paths. Three outside
effects become parameters:

- the item search result, a sequence of identifiers;
- the file listing of each item, `catalog`;
- whether a fetch raises, `raises`, chosen afresh on each item worker
  turn, and whether a transcription raises, `transcribed`, chosen on each
  file worker turn.

File sizes are `int`. Durations are `Option<nat>`: the floored length,
or `None` when `floor(float(length))` raises.

Two behaviours of the code are kept as written:

- The release of a charge has no fallback for an unparseable length.
  When the length does not parse, the charge is 300 seconds, but the
  release raises an error that nothing catches. The file worker then dies,
  and the 300 seconds stay on the counter for good (`AcquireThenHandle`,
  `CounterFromStart`).
- An item identifier equal to `'DONE'` stops an item worker, as the
  stop token does. That identifier is then never served (`ServedAllIff`).
  With two such identifiers both workers stop, and the items after the
  second one go unserved (`CollisionExample`).

## Model

| member | source | states |
|---|---|---|
| Names.TailExtension | ia_whisperer.py:37 | The text after the base is accepted (optional `.ia` or `_NNNkb` qualifier, a dot, a media extension ending the name) exactly when some extension fits; the one returned fits. |
| Names.MatchFrom | ia_whisperer.py:37 | The lazy base group tried at increasing lengths: a result is the first cut point from `k` on that leaves a media tail, and no result means no such cut point exists. |
| Names.MatchFile | ia_whisperer.py:37 | A result is a full match of FILE_REGEX (shortest non-empty base followed by a media tail); no result means no split of the name matches. |
| Names.FullMatchUnique | ia_whisperer.py:37 | The name determines the `base` and `ext` groups: two matches are the same. |
| Names.MatchFileExact | ia_whisperer.py:37 | MatchFile returns a pair of groups if and only if that pair is a match of the pattern. |
| Names.BaseRoundTrip | ia_whisperer.py:37 | Round trip: a base without `.` or `_`, plus any qualifier, a dot and a media extension, is split back into that base and extension. |
| Names.RenditionExample | ia_whisperer.py:37 | `foo_512kb.mp4` has base `foo` and extension `mp4`. |
| Names.SubtitleIsNotMedia | ia_whisperer.py:37-38 | A name SUBTITLE_REGEX accepts is never matched by FILE_REGEX. |
| Selector.IndexOfBase | ia_whisperer.py:154 | The position of a base in the insertion-ordered `bases` dictionary: the first entry with that base, or the end when it is absent. |
| Selector.OfferStep | ia_whisperer.py:152-158 | One non-subtitle file keeps the loop invariant: bases distinct, each entry the earliest smallest file of its base so far, every base seen covered, entries in first-seen order. |
| Selector.ScanSelects | ia_whisperer.py:147-161 | From any point with the invariant, the loop returns `[]` if a later name is a subtitle and the full selection otherwise. |
| Selector.ItemFilesSpec | ia_whisperer.py:145-161 | A subtitle anywhere in the listing gives `[]`. Otherwise the result has one descriptor per base, made from the earliest strictly smallest file of that base, with the item id and the regex groups, every matching base present, in order of first appearance. |
| Selector.ItemFilesWellFormed | ia_whisperer.py:152-158 | Every returned descriptor carries the item's identifier and one of the eight media extensions. |
| Selector.DedupPair | ia_whisperer.py:153-158 | Two files of the same base, whatever their extensions and in either listing order: the strictly smaller one is the only descriptor, with its own extension. |
| Selector.DedupExample | ia_whisperer.py:145-161 | `talk.mp4` (10 MB) and `talk_512kb.mp4` (8 MB) select only the 8 MB rendition, as base `talk`. |
| Paths.StripTrailingSlashes | ia_whisperer.py:169 | The result is a prefix of the input with no trailing separator, and only separators were removed. |
| Paths.Dirname | ia_whisperer.py:169 | The result is the path up to its last separator. It is empty when there is no separator, and kept whole when that part is all separators. Otherwise it is that part without its trailing separators: non-empty, with no separator at the end. |
| Paths.EnsureItemDirectory | ia_whisperer.py:168-171 | Afterwards the item directory exists and nothing else was added; it fails exactly when the directory is the empty path and so cannot be made. |
| Paths.SubtitlePathsShareStem | ia_whisperer.py:174-175 | Every subtitle path is a shared stem followed by its extension, so the txt and vtt paths differ only in the extension, and they are equal if and only if the extensions are. |
| Paths.DownloadPathShape | ia_whisperer.py:164-165 | The download path is `download/<sha1>.<ext>`, or `<sha1>.<ext>` when the hash is absolute. |
| Paths.DownloadPathCollapse | ia_whisperer.py:164-165 | Two media descriptors share a download path if and only if they have the same hash and extension. |
| Paths.ItemDirectoryIsParent | ia_whisperer.py:168-175 | For plain identifiers and bases, the directory made is `<collection>/<item_id>` and every subtitle path is inside it. |
| Paths.DownloadIsNotSubtitle | ia_whisperer.py:164-175 | The download path of a media file is neither of its subtitle paths, so deleting it never deletes a subtitle. |
| Buffer.Release | ia_whisperer.py:128 | The release succeeds exactly when the length parses, and then adding the length back gives the old counter. |
| Buffer.ChargeThenRelease | ia_whisperer.py:86-92 | Charging and then releasing the same length restores the counter; with an unparseable length the release fails. |
| Acquisition.AcquireFile | ia_whisperer.py:66-99 | A file with a vtt subtitle on disk changes nothing and is not fetched. A fetch is attempted only when there is no scratch copy or an `.aria2` file marks it unfinished. The file is charged and queued unless that fetch raises, in which case nothing is charged or queued. |
| Acquisition.ScratchCopyReused | ia_whisperer.py:74-94 | A file with no local vtt, whose complete scratch copy is on disk, is charged and queued without a fetch, whatever a fetch would do. |
| Acquisition.FetchedCopyReused | ia_whisperer.py:74-84 | Once a file's fetch has gone through, a later acquisition of any file with the same hash and extension finds the complete copy and is not fetched again. |
| Acquisition.AcquireCharges | ia_whisperer.py:86-92 | An admitted file adds its floored length, or exactly 300 when the length does not parse; a skipped or failed file adds nothing. |
| Acquisition.QueuedExactly | ia_whisperer.py:64-94 | A descriptor is queued for an item if and only if it is one of the item's selected files, it has no local vtt, and its fetch did not raise. |
| Acquisition.ToFetchExactly | ia_whisperer.py:66-84 | A descriptor reaches the fetch step if and only if it is one of the item's selected files, it has no local vtt, and its scratch copy is missing or unfinished. |
| Acquisition.ProcessItemQueues | ia_whisperer.py:66-99 | One item appends exactly its admitted files to the transcription queue, in selection order, and charges the counter by exactly their total. |
| Acquisition.ProcessItemFetches | ia_whisperer.py:66-84 | One item attempts fetches for exactly its files that have no local subtitles and no complete scratch copy, in selection order. |
| Acquisition.ProcessItemBalanced | ia_whisperer.py:86-94 | If the counter equals the charge of the queue before an item, it still does after. |
| Acquisition.ProcessItemAdds | ia_whisperer.py:66-94 | An item only appends to the transcription queue, and only files of its own that have no local subtitles. |
| Acquisition.ItemStepGate | ia_whisperer.py:56-61 | An item or stop token is taken if and only if the counter is at most 86400 and the queue is not empty. The worker sleeps exactly when the counter is above 86400, and stops exactly when the head is `'DONE'`. |
| Acquisition.ItemStepWorked | ia_whisperer.py:59-99 | A worked turn keeps the counter balanced and only appends to the transcription queue. What it appends are media files of the dequeued item without local subtitles. |
| Transcription.HandleFileAccounts | ia_whisperer.py:107-128 | A turn takes the head of the queue, if there is one. A completed turn releases exactly that file's length. The worker dies exactly when the length does not parse, or when a transcribed file's directory cannot be made; the counter then keeps the charge. |
| Transcription.HandleFileBalanced | ia_whisperer.py:110-128 | A completed turn keeps the counter equal to the charge of the queue. A crash leaves exactly the dead file's charge unaccounted. |
| Transcription.FailedTranscriptionKeepsDisk | ia_whisperer.py:111-118 | When transcription raises, nothing is written and the scratch copy is not deleted. |
| Transcription.TranscriptionWrites | ia_whisperer.py:120-139 | After a completed transcription, both subtitles exist and the scratch copy is gone; nothing else is removed. |
| Transcription.TranscribedIsSkipped | ia_whisperer.py:66-69 | Once a file has been transcribed, acquiring it again is a no-op, whatever the fetch would do. |
| Transcription.AcquireThenHandle | ia_whisperer.py:86-128 | A file charged and then handled leaves the counter where it started when its length parses. When the length does not parse, the worker dies and 300 seconds stay on the counter. |
| Enumerator.Enumerate | ia_whisperer.py:45-49 | The item queue is the identifiers in catalog order, followed by exactly two `'DONE'` tokens. |
| Enumerator.ServedBound | ia_whisperer.py:59-61 | Workers never hand on a `'DONE'`, and they serve at most the queue entries that are not `'DONE'`. |
| Enumerator.ServedAllIff | ia_whisperer.py:48-61 | The two item workers serve exactly the catalog if and only if no identifier equals `'DONE'`. |
| Enumerator.CollisionExample | ia_whisperer.py:59-61 | Two identifiers `'DONE'` stop both workers before a third item is reached. |
| Pipeline.StepAccounted | ia_whisperer.py:56-128 | Every worker turn keeps the counter equal to the queued charge plus the stranded charge. The stranded charge grows only when a file worker dies. |
| Pipeline.ItemTurnKeepsCopies | ia_whisperer.py:66-94 | After an item turn, the scratch copy of every file it fetched is on disk. A later acquisition of a file with the same hash and extension then does not fetch it, and unless that file has local subtitles it is charged and queued. |
| Pipeline.StepKeepsDownloads | ia_whisperer.py:74-139 | A media file's scratch copy on disk survives every turn except a file worker's completed transcription of a file with that same download path. |
| Pipeline.RunAccounted | ia_whisperer.py:56-128 | Any interleaving of turns keeps that equality, and the stranded charge never shrinks. |
| Pipeline.CounterFromStart | ia_whisperer.py:178-201 | From a zero counter and empty queues, the counter always equals the queued charge plus the stranded charge, so it is never negative. |

## Left out

- The Internet Archive search and `get_item` calls are not modelled: the identifiers and each item's file listing are parameters.
- The `aria2c` download itself and its exit status are not modelled. Whether starting it raises is a parameter; the test of the scratch copy and its `.aria2` file is modelled. A fetch that does not raise is taken to leave a complete copy and no `.aria2` file; a download that fails without raising, leaving its `.aria2` file behind, is not represented.
- Acquisition.ProcessItemFetches: all files of one item are judged against the disk as it was when the item was taken. The copies an item's fetches leave are added to the disk when the item's turn ends (`Acquisition.AfterFetches`), so later items see them; but a second file with the same hash and extension in the same item is fetched again in the model, where the program may find the first copy.
- Whisper model loading, transcription, ffmpeg and the subtitle writers are not modelled: whether transcription raises is a parameter, and the written files are just paths added to the disk set.
- `floor(float(...))` is not modelled, because it is floating point. A length is already an `Option<nat>`.
- The numpy temperature tuple and the CUDA device setting are not modelled; they only configure the speech engine.
- `multiprocessing` processes, the `Manager` value and queues, `join` ordering, `time.sleep` polling and the `'DONE'` tokens sent to the file workers from `__main__` are not modelled. Worker turns are atomic steps in any interleaving, so the non-atomic read-modify-write of the shared counter is not modelled.
- Acquisition.ItemStepGate: the gate test (line 56) and the blocking dequeue (line 59) are separate steps in the program. The "only if" therefore holds per modelled turn only: a worker that has passed the test can still dequeue after the other worker has pushed the counter above 86400.
- Selector.ItemFilesSpec: sizes are compared as integers. If the listing delivers sizes as strings, the source's `<` compares them lexicographically, which this model does not represent.
- Names.MatchFile: names are assumed to contain no newline. Python's `.` does not match a newline and `$` also matches before a trailing one, and neither is modelled.
- Paths.Join: `..` components are not normalised, matching `posixpath.join`. `makedirs` creating missing parent directories is reduced to adding the item directory itself.
- `open(...)` failing for reasons other than a missing directory is not modelled, nor is a worker crash caused by `item.get_file`.
- A finished-item ledger does not appear in `ia_whisperer.py`, so it is not modelled.
- Logging (`print`, `traceback`) and command-line handling are left out; they do not affect state.

=== FILE: acquisition.dfy ===
/** The item worker `item_processor`: wait at the buffer gate, take an
    item identifier, select its files, and fetch (unless a complete scratch
    copy is already there) and queue every selected file that has no
    subtitles on disk yet.

    The filesystem is the set of paths that exist, as seen when the item
    is taken.  Fetching is an outside program: whether starting it raises
    for a file is the parameter `raises`.  The tool's exit status is not
    looked at, so a fetch that does not raise counts as done. */
module Acquisition {
  import opened Wrappers
  import opened Names
  import opened Selector
  import opened Paths
  import opened Buffer
  import opened Enumerator

  /** The state the item and file workers share: the buffer counter and
      the transcription queue, plus the files the item workers have tried
      to fetch, in order. */
  datatype Stage = Stage(counter: int, transcriptionQueue: seq<Descriptor>, attempted: seq<Descriptor>)

  /** The counter accounts exactly for the files waiting on the
      transcription queue. */
  predicate Balanced(s: Stage) {
    s.counter == Buffered(s.transcriptionQueue)
  }

  /** Subtitles for `d` already exist: its vtt path is on disk. */
  predicate HasLocalSubtitles(collection: string, disk: set<string>, d: Descriptor) {
    SubtitlePath(collection, d, "vtt") in disk
  }

  /** The download tool is started for `d` when there is no scratch copy
      yet, or when the tool's `.aria2` control file shows an unfinished
      one. */
  predicate NeedsDownload(disk: set<string>, d: Descriptor) {
    DownloadPath(d) !in disk || DownloadPath(d) + ".aria2" in disk
  }

  /** `d` reaches the fetch step: no local subtitles, and no complete
      scratch copy. */
  predicate Fetches(collection: string, disk: set<string>, d: Descriptor) {
    !HasLocalSubtitles(collection, disk, d) && NeedsDownload(disk, d)
  }

  /** `d` ends up on the transcription queue: no local subtitles, and
      either a complete scratch copy exists or the fetch did not raise. */
  predicate Admitted(collection: string, disk: set<string>, d: Descriptor, raises: bool) {
    !HasLocalSubtitles(collection, disk, d) && !(NeedsDownload(disk, d) && raises)
  }

  /** One pass of the loop over an item's selected files.  A file with
      local subtitles is skipped before anything else.  A file whose
      complete scratch copy is on disk is not fetched again, so nothing
      can raise for it.  Otherwise the fetch is attempted; if it raises,
      the error is reported and nothing is charged.  Every file not
      skipped and not failed is charged and queued. */
  function AcquireFile(s: Stage, collection: string, disk: set<string>, d: Descriptor, raises: bool): (r: Stage)
    ensures HasLocalSubtitles(collection, disk, d) ==> r == s
    ensures r.attempted == s.attempted + (if Fetches(collection, disk, d) then [d] else [])
    ensures !Admitted(collection, disk, d, raises) ==>
              r.counter == s.counter && r.transcriptionQueue == s.transcriptionQueue
    ensures Admitted(collection, disk, d, raises) ==>
              && r.transcriptionQueue == s.transcriptionQueue + [d]
              && r.counter == s.counter + Charge(d.file.length)
  {
    if SubtitlePath(collection, d, "vtt") in disk then s
    else
      var attempted := if NeedsDownload(disk, d) then s.attempted + [d] else s.attempted;
      if NeedsDownload(disk, d) && raises then s.(attempted := attempted)
      else Stage(s.counter + Charge(d.file.length), s.transcriptionQueue + [d], attempted)
  }

  /** A file whose complete scratch copy is on disk, and that has no local
      subtitles, is charged and queued without a fetch, whatever a fetch
      would have done. */
  lemma ScratchCopyReused(s: Stage, collection: string, disk: set<string>, d: Descriptor, raises: bool)
    requires !HasLocalSubtitles(collection, disk, d)
    requires DownloadPath(d) in disk && DownloadPath(d) + ".aria2" !in disk
    ensures var r := AcquireFile(s, collection, disk, d, raises);
      && r.attempted == s.attempted
      && r.transcriptionQueue == s.transcriptionQueue + [d]
      && r.counter == s.counter + Charge(d.file.length)
  {
  }

  /** Acquiring a file that is not skipped adds its floored length to the
      counter, or exactly 300 seconds when the length does not parse; a
      skipped file or a fetch that raises adds nothing. */
  lemma AcquireCharges(s: Stage, collection: string, disk: set<string>, d: Descriptor, raises: bool)
    ensures var r := AcquireFile(s, collection, disk, d, raises);
      && (Admitted(collection, disk, d, raises) && d.file.length.Some? ==> r.counter == s.counter + d.file.length.value)
      && (Admitted(collection, disk, d, raises) && d.file.length.None? ==> r.counter == s.counter + 300)
      && (!Admitted(collection, disk, d, raises) ==> r.counter == s.counter)
  {
  }

  /** The files of `files` that are admitted, in order: the reference for
      what one item adds to the transcription queue. */
  function Queued(collection: string, disk: set<string>, files: seq<Descriptor>, raises: Descriptor -> bool): (q: seq<Descriptor>)
    ensures |q| <= |files|
    decreases |files|
  {
    if files == [] then []
    else
      var rest := Queued(collection, disk, files[1..], raises);
      if Admitted(collection, disk, files[0], raises(files[0])) then [files[0]] + rest else rest
  }

  /** The files of `files` that reach the fetch step, in order: the
      reference for which files one item tries to fetch. */
  function ToFetch(collection: string, disk: set<string>, files: seq<Descriptor>): (q: seq<Descriptor>)
    ensures |q| <= |files|
    decreases |files|
  {
    if files == [] then []
    else
      var rest := ToFetch(collection, disk, files[1..]);
      if Fetches(collection, disk, files[0]) then [files[0]] + rest else rest
  }

  /** A file reaches the fetch step exactly when it is one of the item's
      files, has no local subtitles, and has no complete scratch copy. */
  lemma {:induction false} ToFetchExactly(collection: string, disk: set<string>, files: seq<Descriptor>, d: Descriptor)
    ensures d in ToFetch(collection, disk, files) <==>
              d in files && !HasLocalSubtitles(collection, disk, d) && NeedsDownload(disk, d)
    decreases |files|
  {
    if files != [] {
      ToFetchExactly(collection, disk, files[1..], d);
      assert files == [files[0]] + files[1..];
    }
  }

  /** The scratch copies one item's fetches leave: the download path of
      every selected file that reached the fetch step and whose fetch did
      not raise.  The tool's exit status is not looked at, so such a copy
      is taken to be complete. */
  function Fetched(collection: string, disk: set<string>, files: seq<Descriptor>, raises: Descriptor -> bool): set<string> {
    set d | d in files && Fetches(collection, disk, d) && !raises(d) :: DownloadPath(d)
  }

  /** The disk once one item's fetches are over: every finished copy
      exists, and the tool's `.aria2` control file for it is gone. */
  function AfterFetches(collection: string, disk: set<string>, files: seq<Descriptor>, raises: Descriptor -> bool): set<string> {
    var done := Fetched(collection, disk, files, raises);
    (disk - (set p | p in done :: p + ".aria2")) + done
  }

  /** A fetch that went through leaves a complete scratch copy behind, so
      a later acquisition of any file with the same hash and extension
      reuses it: it is charged and queued without a fetch. */
  lemma FetchedCopyReused(collection: string, disk: set<string>, files: seq<Descriptor>, raises: Descriptor -> bool,
                          d: Descriptor, later: Descriptor)
    requires forall f :: f in files ==> f.extension in MediaExtensions
    requires d in files && Fetches(collection, disk, d) && !raises(d)
    requires later.file.sha1 == d.file.sha1 && later.extension == d.extension
    ensures !NeedsDownload(AfterFetches(collection, disk, files, raises), later)
  {
    var done := Fetched(collection, disk, files, raises);
    assert DownloadPath(d) in done;
    forall f | f in files && Fetches(collection, disk, f) && !raises(f)
      ensures DownloadPath(f) != DownloadPath(later) + ".aria2"
    {
      DownloadPathNotControl(f, later);
    }
    assert DownloadPath(later) + ".aria2" !in done;
  }

  /** The loop over the selected files of one item. */
  function ProcessItem(s: Stage, collection: string, disk: set<string>, files: seq<Descriptor>, raises: Descriptor -> bool): Stage
    decreases |files|
  {
    if files == [] then s
    else ProcessItem(AcquireFile(s, collection, disk, files[0], raises(files[0])), collection, disk, files[1..], raises)
  }

  /** A file is queued exactly when it is one of the item's files and is
      admitted: in particular a file with local subtitles never is. */
  lemma {:induction false} QueuedExactly(collection: string, disk: set<string>, files: seq<Descriptor>, raises: Descriptor -> bool, d: Descriptor)
    ensures d in Queued(collection, disk, files, raises) <==> d in files && Admitted(collection, disk, d, raises(d))
    decreases |files|
  {
    if files != [] {
      QueuedExactly(collection, disk, files[1..], raises, d);
      assert files == [files[0]] + files[1..];
    }
  }

  /** One item appends the admitted files to the transcription queue, in
      selection order, and charges the counter for exactly those. */
  lemma {:induction false} ProcessItemQueues(s: Stage, collection: string, disk: set<string>, files: seq<Descriptor>, raises: Descriptor -> bool)
    ensures ProcessItem(s, collection, disk, files, raises).transcriptionQueue
              == s.transcriptionQueue + Queued(collection, disk, files, raises)
    ensures ProcessItem(s, collection, disk, files, raises).counter
              == s.counter + Buffered(Queued(collection, disk, files, raises))
    decreases |files|
  {
    if files != [] {
      var d := files[0];
      var s1 := AcquireFile(s, collection, disk, d, raises(d));
      var rest := Queued(collection, disk, files[1..], raises);
      assert ProcessItem(s, collection, disk, files, raises) == ProcessItem(s1, collection, disk, files[1..], raises);
      ProcessItemQueues(s1, collection, disk, files[1..], raises);
      if Admitted(collection, disk, d, raises(d)) {
        assert Queued(collection, disk, files, raises) == [d] + rest;
        assert s.transcriptionQueue + [d] + rest == s.transcriptionQueue + ([d] + rest);
        BufferedConcat([d], rest);
        assert Buffered([d]) == Charge(d.file.length) by {
          assert [d][..0] == [];
        }
      } else {
        assert Queued(collection, disk, files, raises) == rest;
      }
    }
  }

  /** One item tries to fetch exactly its files without local subtitles
      and without a complete scratch copy, in selection order. */
  lemma {:induction false} ProcessItemFetches(s: Stage, collection: string, disk: set<string>, files: seq<Descriptor>, raises: Descriptor -> bool)
    ensures ProcessItem(s, collection, disk, files, raises).attempted
              == s.attempted + ToFetch(collection, disk, files)
    decreases |files|
  {
    if files != [] {
      var d := files[0];
      var s1 := AcquireFile(s, collection, disk, d, raises(d));
      assert ProcessItem(s, collection, disk, files, raises) == ProcessItem(s1, collection, disk, files[1..], raises);
      ProcessItemFetches(s1, collection, disk, files[1..], raises);
      if Fetches(collection, disk, d) {
        assert ToFetch(collection, disk, files) == [d] + ToFetch(collection, disk, files[1..]);
        assert s.attempted + [d] + ToFetch(collection, disk, files[1..])
            == s.attempted + ([d] + ToFetch(collection, disk, files[1..]));
      }
    }
  }

  /** Processing an item keeps the counter in balance with the queue. */
  lemma ProcessItemBalanced(s: Stage, collection: string, disk: set<string>, files: seq<Descriptor>, raises: Descriptor -> bool)
    requires Balanced(s)
    ensures Balanced(ProcessItem(s, collection, disk, files, raises))
  {
    ProcessItemQueues(s, collection, disk, files, raises);
    BufferedConcat(s.transcriptionQueue, Queued(collection, disk, files, raises));
  }

  /** What one turn of the item worker's loop does. */
  datatype ItemTurn =
    | Throttled                                // the counter is over the limit: the worker sleeps
    | Starved                                  // nothing on the item queue yet
    | Stopped(rest: seq<string>)               // took the stop token and exits
    | Worked(stage: Stage, rest: seq<string>)  // took an item and processed it

  /** One turn of `item_processor`: the gate, the dequeue, the stop token,
      then the item's selected files.  `catalog` gives each identifier's
      file listing. */
  function ItemStep(s: Stage, items: seq<string>, collection: string, disk: set<string>,
                    catalog: string -> seq<FileRecord>, raises: Descriptor -> bool): ItemTurn
  {
    if !Admits(s.counter) then Throttled
    else if items == [] then Starved
    else if items[0] == Sentinel then Stopped(items[1..])
    else Worked(ProcessItem(s, collection, disk, ItemFiles(items[0], catalog(items[0])), raises), items[1..])
  }

  /** The gate: an item (or the stop token) is taken from the queue if and
      only if the counter is within the limit and the queue is not empty,
      and it is the head that is taken. */
  lemma ItemStepGate(s: Stage, items: seq<string>, collection: string, disk: set<string>,
                     catalog: string -> seq<FileRecord>, raises: Descriptor -> bool)
    ensures var t := ItemStep(s, items, collection, disk, catalog, raises);
      && ((t.Stopped? || t.Worked?) <==> Admits(s.counter) && items != [])
      && (t.Throttled? <==> s.counter > ToProcessBufferSeconds)
      && (t.Stopped? <==> Admits(s.counter) && items != [] && items[0] == Sentinel)
      && ((t.Stopped? || t.Worked?) ==> t.rest == items[1..])
  {
  }

  /** What one item adds to the transcription queue are its own files,
      none of them with local subtitles. */
  lemma ProcessItemAdds(s: Stage, collection: string, disk: set<string>, files: seq<Descriptor>, raises: Descriptor -> bool)
    ensures var r := ProcessItem(s, collection, disk, files, raises);
      && |s.transcriptionQueue| <= |r.transcriptionQueue|
      && r.transcriptionQueue[..|s.transcriptionQueue|] == s.transcriptionQueue
      && forall i :: |s.transcriptionQueue| <= i < |r.transcriptionQueue| ==>
           r.transcriptionQueue[i] in files && !HasLocalSubtitles(collection, disk, r.transcriptionQueue[i])
  {
    var r := ProcessItem(s, collection, disk, files, raises);
    var added := Queued(collection, disk, files, raises);
    ProcessItemQueues(s, collection, disk, files, raises);
    assert r.transcriptionQueue == s.transcriptionQueue + added;
    forall i | |s.transcriptionQueue| <= i < |r.transcriptionQueue|
      ensures r.transcriptionQueue[i] in files && !HasLocalSubtitles(collection, disk, r.transcriptionQueue[i])
    {
      var d := r.transcriptionQueue[i];
      assert d == added[i - |s.transcriptionQueue|];
      QueuedExactly(collection, disk, files, raises, d);
    }
  }

  /** A worked turn keeps the counter in balance and only appends to the
      transcription queue, and what it appends are media files of the item
      it took that have no local subtitles. */
  lemma ItemStepWorked(s: Stage, items: seq<string>, collection: string, disk: set<string>,
                       catalog: string -> seq<FileRecord>, raises: Descriptor -> bool)
    requires Balanced(s)
    ensures var t := ItemStep(s, items, collection, disk, catalog, raises);
      t.Worked? ==>
        && Balanced(t.stage)
        && |s.transcriptionQueue| <= |t.stage.transcriptionQueue|
        && t.stage.transcriptionQueue[..|s.transcriptionQueue|] == s.transcriptionQueue
        && forall i :: |s.transcriptionQueue| <= i < |t.stage.transcriptionQueue| ==>
             var d := t.stage.transcriptionQueue[i];
             d.itemId == items[0] && d.extension in MediaExtensions && !HasLocalSubtitles(collection, disk, d)
  {
    var t := ItemStep(s, items, collection, disk, catalog, raises);
    if t.Worked? {
      var files := ItemFiles(items[0], catalog(items[0]));
      ProcessItemBalanced(s, collection, disk, files, raises);
      ProcessItemAdds(s, collection, disk, files, raises);
      ItemFilesWellFormed(items[0], catalog(items[0]));
    }
  }
}

=== FILE: buffer.dfy ===
/** The shared buffer counter: how many seconds of media have been
    fetched but not yet transcribed.  Item workers charge it, file workers
    release it, and item workers only take new work while it is within the
    buffer limit. */
module Buffer {
  import opened Wrappers
  import opened Selector

  /** TO_PROCESS_BUFFER_SECONDS: a day of media. */
  const ToProcessBufferSeconds: int := 60 * 60 * 24

  /** The guess charged for a file whose length does not parse. */
  const UnknownLengthSeconds: nat := 300

  /** What acquiring a file adds to the counter: its floored length, or
      the five-minute guess when the length does not parse. */
  function Charge(length: Option<nat>): nat {
    length.GetOr(UnknownLengthSeconds)
  }

  /** What handling a file does to the counter: subtract the floored
      length.  There is no fallback on this side, so an unparseable length
      raises, the None result. */
  function Release(counter: int, length: Option<nat>): (r: Option<int>)
    ensures r.Some? <==> length.Some?
    ensures r.Some? ==> r.value + length.value == counter
  {
    match length
    case Some(n) => Some(counter - n)
    case None => None
  }

  /** The admission gate of the item workers: new work is taken only while
      the counter does not exceed the buffer limit. */
  predicate Admits(counter: int) {
    counter <= ToProcessBufferSeconds
  }

  /** Charge followed by release: the counter returns to where it was when
      the length parses, and the release fails when it does not, leaving the
      300-second guess charged. */
  lemma ChargeThenRelease(counter: int, length: Option<nat>)
    ensures length.Some? ==> Release(counter + Charge(length), length) == Some(counter)
    ensures length.None? ==> Release(counter + Charge(length), length).None?
  {
  }

  /** The total charge of the descriptors waiting on the transcription
      queue. */
  function Buffered(q: seq<Descriptor>): nat
    decreases |q|
  {
    if q == [] then 0 else Buffered(q[..|q| - 1]) + Charge(q[|q| - 1].file.length)
  }

  /** Buffered distributes over concatenation. */
  lemma {:induction false} BufferedConcat(a: seq<Descriptor>, b: seq<Descriptor>)
    ensures Buffered(a + b) == Buffered(a) + Buffered(b)
    decreases |b|
  {
    if b == [] {
      assert a + b == a;
    } else {
      assert (a + b)[..|a + b| - 1] == a + b[..|b| - 1];
      BufferedConcat(a, b[..|b| - 1]);
    }
  }

  /** Taking the head off the queue removes exactly its charge. */
  lemma BufferedFront(q: seq<Descriptor>)
    requires |q| > 0
    ensures Buffered(q) == Charge(q[0].file.length) + Buffered(q[1..])
  {
    assert q == [q[0]] + q[1..];
    BufferedConcat([q[0]], q[1..]);
    assert Buffered([q[0]]) == Charge(q[0].file.length) by {
      assert [q[0]][..0] == [];
    }
  }
}

=== FILE: enumerator.dfy ===
/** The collection enumerator `collection_processor` and how the pool of
    item workers consumes what it produces. */
module Enumerator {

  /** ITEM_WORKERS */
  const ItemWorkers: nat := 2

  /** The stop token item workers look for.  It is an ordinary string on
      the same queue as the item identifiers. */
  const Sentinel: string := "DONE"

  /** The item queue `collection_processor` fills: every identifier the
      search yields, in catalog order, then one stop token per item worker.
      The catalog search itself is not modelled: `ids` is its result. */
  function Enumerate(ids: seq<string>): (q: seq<string>)
    ensures |q| == |ids| + ItemWorkers
    ensures q[..|ids|] == ids
    ensures forall i :: |ids| <= i < |q| ==> q[i] == Sentinel
  {
    ids + seq(ItemWorkers, _ => Sentinel)
  }

  /** The identifiers the item workers take from queue `q` when `live` of
      them are still running: each pop goes to some running worker, and a
      worker that pops the stop token exits.  This abstracts the item turns
      of the pipeline to their dequeues alone: the gate, the sleeping and
      the processing of each item are left to `Acquisition.ItemStep`, whose
      `ItemStepGate` states the same pop-the-head and stop-on-token rule
      for one turn. */
  function Served(q: seq<string>, live: nat): seq<string>
    decreases |q|
  {
    if live == 0 || q == [] then []
    else if q[0] == Sentinel then Served(q[1..], live - 1)
    else [q[0]] + Served(q[1..], live)
  }

  /** Number of stop tokens in `q`. */
  function Sentinels(q: seq<string>): nat {
    multiset(q)[Sentinel]
  }

  /** The workers never hand on a stop token, and they serve at most the
      identifiers that are not stop tokens. */
  lemma {:induction false} ServedBound(q: seq<string>, live: nat)
    ensures Sentinel !in Served(q, live)
    ensures |Served(q, live)| + Sentinels(q) <= |q|
    decreases |q|
  {
    if live == 0 || q == [] {
    } else {
      assert q == [q[0]] + q[1..];
      assert multiset(q) == multiset([q[0]]) + multiset(q[1..]);
      if q[0] == Sentinel {
        ServedBound(q[1..], live - 1);
      } else {
        ServedBound(q[1..], live);
      }
    }
  }

  /** With no identifier equal to the stop token, the pool serves the
      whole catalog in order. */
  lemma {:induction false} ServedPlain(ids: seq<string>, tail: seq<string>, live: nat)
    requires Sentinel !in ids
    requires live >= 1
    ensures Served(ids + tail, live) == ids + Served(tail, live)
    decreases |ids|
  {
    if ids != [] {
      assert (ids + tail)[1..] == ids[1..] + tail;
      ServedPlain(ids[1..], tail, live);
    } else {
      assert ids + tail == tail;
    }
  }

  lemma {:induction false} ServedSentinels(n: nat, live: nat)
    ensures Served(seq(n, _ => Sentinel), live) == []
    decreases n
  {
    if n > 0 && live > 0 {
      assert seq(n, _ => Sentinel)[1..] == seq(n - 1, _ => Sentinel);
      ServedSentinels(n - 1, live - 1);
    }
  }

  /** The pool serves exactly the catalog if and only if no identifier
      collides with the stop token; a collision stops a worker early and
      can leave items unserved. */
  lemma ServedAllIff(ids: seq<string>)
    ensures Served(Enumerate(ids), ItemWorkers) == ids <==> Sentinel !in ids
  {
    var q := Enumerate(ids);
    var tail := seq(ItemWorkers, _ => Sentinel);
    assert q == ids + tail;
    if Sentinel !in ids {
      ServedPlain(ids, tail, ItemWorkers);
      ServedSentinels(ItemWorkers, ItemWorkers);
    } else {
      ServedBound(q, ItemWorkers);
      assert multiset(q) == multiset(ids) + multiset(tail);
      assert multiset(tail)[Sentinel] == ItemWorkers by {
        assert tail == [Sentinel, Sentinel];
      }
      assert multiset(ids)[Sentinel] >= 1;
    }
  }

  /** Two items named like the stop token end both workers before item
      `x` is reached. */
  lemma CollisionExample(x: string)
    requires x != Sentinel
    ensures Served(Enumerate([Sentinel, Sentinel, x]), ItemWorkers) == []
  {
    var q := Enumerate([Sentinel, Sentinel, x]);
    assert q == [Sentinel, Sentinel, x, Sentinel, Sentinel];
    assert Served(q, 2) == Served(q[1..], 1);
    assert q[1..][0] == Sentinel;
    assert Served(q[1..], 1) == Served(q[1..][1..], 0);
  }
}

=== FILE: names.dfy ===
/** The two file-name patterns of the transcriber.

    FILE_REGEX is `^(?P<base>.+?)(?:\.ia|_(?:512|256|128|64)kb)?\.(?P<ext>mp4|avi|...)$`:
    a lazy, non-empty base, then an optional rendition qualifier, a dot and
    a media extension that must end the name.  SUBTITLE_REGEX is a search
    for `.stt` or `.vtt` at the end of the name. */
module Names {
  import opened Wrappers
  import opened Strings

  /** The two named groups of a FILE_REGEX match. */
  datatype NameParts = NameParts(base: string, ext: string)

  /** The optional group between base and extension. */
  const Qualifiers: seq<string> := [".ia", "_512kb", "_256kb", "_128kb", "_64kb"]

  /** The `ext` alternatives, in the order the pattern lists them. */
  const MediaExtensions: seq<string> := ["mp4", "avi", "mov", "ogv", "mpeg", "flac", "mp3", "wav"]

  predicate IsQualifier(q: string) {
    q == "" || q in Qualifiers
  }

  /** `t` is what the pattern accepts after the base group, with `ext`
      captured: an optional qualifier, a dot, then `ext` up to the end. */
  predicate MediaTail(t: string, ext: string) {
    && ext in MediaExtensions
    && EndsWith(t, "." + ext)
    && IsQualifier(t[..|t| - |ext| - 1])
  }

  /** No cut point in `lo..hi` leaves a media tail: the lazy base group
      cannot stop there. */
  ghost predicate NoTailBetween(name: string, lo: nat, hi: nat) {
    forall j :: lo <= j < hi && j <= |name| ==> TailExtension(name[j..]).None?
  }

  /** The regular expression's meaning: `p.base` is the shortest non-empty
      prefix of `name` after which a media tail follows, and `p.ext` is the
      extension that tail captures. */
  ghost predicate FullMatch(name: string, p: NameParts) {
    && 1 <= |p.base| <= |name|
    && name[..|p.base|] == p.base
    && MediaTail(name[|p.base|..], p.ext)
    && NoTailBetween(name, 1, |p.base|)
  }

  /** The extension alternatives from index `i` on, tried in order. */
  function TailExtensionFrom(t: string, i: nat): (r: Option<string>)
    requires i <= |MediaExtensions|
    decreases |MediaExtensions| - i
    ensures r.Some? ==> MediaTail(t, r.value)
    ensures r.None? ==> forall j :: i <= j < |MediaExtensions| ==> !MediaTail(t, MediaExtensions[j])
  {
    if i == |MediaExtensions| then None
    else if MediaTail(t, MediaExtensions[i]) then Some(MediaExtensions[i])
    else TailExtensionFrom(t, i + 1)
  }

  /** The extension captured when the remainder `t` matches, if it does. */
  function TailExtension(t: string): (r: Option<string>)
    ensures r.Some? ==> MediaTail(t, r.value)
    ensures r.None? ==> forall e :: !MediaTail(t, e)
  {
    TailExtensionFrom(t, 0)
  }

  /** A cut point with no media tail after it widens a range of such. */
  lemma NoTailExtend(name: string, k: nat, hi: nat)
    requires k < |name| && TailExtension(name[k..]).None?
    requires NoTailBetween(name, k + 1, hi)
    ensures NoTailBetween(name, k, hi)
  {
  }

  /** The lazy base group tried at lengths `k`, `k + 1`, ... in turn. */
  function MatchFrom(name: string, k: nat): (r: Option<NameParts>)
    requires 1 <= k
    decreases |name| - k
    ensures r.Some? ==>
              && k <= |r.value.base| < |name|
              && name[..|r.value.base|] == r.value.base
              && MediaTail(name[|r.value.base|..], r.value.ext)
              && NoTailBetween(name, k, |r.value.base|)
    ensures r.None? ==> NoTailBetween(name, k, |name|)
  {
    if k >= |name| then None
    else
      var t := TailExtension(name[k..]);
      if t.Some? then Some(NameParts(name[..k], t.value))
      else
        var r := MatchFrom(name, k + 1);
        if r.Some? then
          NoTailExtend(name, k, |r.value.base|);
          r
        else
          NoTailExtend(name, k, |name|);
          r
  }

  /** `FILE_REGEX.search(name)`, as the pair of named groups. */
  function MatchFile(name: string): (r: Option<NameParts>)
    ensures r.Some? ==> FullMatch(name, r.value)
    ensures r.None? ==> forall p :: !FullMatch(name, p)
  {
    MatchFrom(name, 1)
  }

  /** `SUBTITLE_REGEX.search(name)`: the name ends in `.stt` or `.vtt`. */
  predicate IsSubtitle(name: string) {
    EndsWith(name, ".stt") || EndsWith(name, ".vtt")
  }

  /** Every qualifier begins with `.` or `_`. */
  lemma QualifierStart(q: string)
    requires q in Qualifiers
    ensures |q| >= 1 && (q[0] == '.' || q[0] == '_')
  {
  }

  /** A remainder that matches begins with the qualifier's or the dot's
      first character, which is always `.` or `_`. */
  lemma TailStart(t: string)
    ensures TailExtension(t).Some? ==> |t| >= 2 && (t[0] == '.' || t[0] == '_')
  {
    if TailExtension(t).Some? {
      var e := TailExtension(t).value;
      assert MediaTail(t, e);
      var k := |t| - |e| - 1;
      assert t[k..] == "." + e;
      assert |e| >= 3;
      var q := t[..k];
      if q == "" {
        assert t[0] == t[k..][0] == '.';
      } else {
        assert q in Qualifiers;
        QualifierStart(q);
        assert t[0] == q[0];
      }
    }
  }

  /** The extension of a media tail is what follows its last dot, so a
      tail has only one extension. */
  lemma MediaTailExtension(t: string, e: string)
    requires MediaTail(t, e)
    ensures e == t[LastIndex(t, '.') + 1..]
  {
    assert forall i :: 0 <= i < |e| ==> e[i] != '.';
    var q := t[..|t| - |e| - 1];
    assert t == q + ['.'] + e;
    LastIndexOfSeparator(q, '.', e);
  }

  /** FILE_REGEX has at most one match: the groups are determined by the
      name. */
  lemma FullMatchUnique(name: string, p1: NameParts, p2: NameParts)
    requires FullMatch(name, p1) && FullMatch(name, p2)
    ensures p1 == p2
  {
    assert !MediaTail(name[|p1.base|..], p1.ext) || |p2.base| <= |p1.base|;
    assert !MediaTail(name[|p2.base|..], p2.ext) || |p1.base| <= |p2.base|;
    MediaTailExtension(name[|p1.base|..], p1.ext);
    MediaTailExtension(name[|p2.base|..], p2.ext);
  }

  /** MatchFile is exactly the regular expression: it returns the groups
      of a match when there is one, and only then. */
  lemma MatchFileExact(name: string, p: NameParts)
    ensures MatchFile(name) == Some(p) <==> FullMatch(name, p)
  {
    if FullMatch(name, p) {
      FullMatchUnique(name, MatchFile(name).value, p);
    }
  }

  /** Round trip: a base without `.` or `_`, followed by any qualifier, a
      dot and a media extension, is split back into that base and that
      extension. */
  lemma {:induction false} BaseRoundTrip(base: string, q: string, ext: string)
    requires |base| >= 1
    requires forall i :: 0 <= i < |base| ==> base[i] != '.' && base[i] != '_'
    requires IsQualifier(q)
    requires ext in MediaExtensions
    ensures MatchFile(base + q + "." + ext) == Some(NameParts(base, ext))
  {
    var name := base + q + "." + ext;
    var p := NameParts(base, ext);
    assert name[..|base|] == base;
    assert name[|base|..] == q + "." + ext;
    assert MediaTail(name[|base|..], ext) by {
      var t := name[|base|..];
      assert t[..|t| - |ext| - 1] == q;
      assert t[|t| - |ext| - 1..] == "." + ext;
    }
    forall j | 1 <= j < |base|
      ensures TailExtension(name[j..]).None?
    {
      assert name[j..][0] == base[j];
      TailStart(name[j..]);
    }
    assert FullMatch(name, p);
    MatchFileExact(name, p);
  }

  /** A concrete instance: the 512kb rendition of `foo.mp4` has base `foo`. */
  lemma RenditionExample()
    ensures MatchFile("foo_512kb.mp4") == Some(NameParts("foo", "mp4"))
  {
    BaseRoundTrip("foo", "_512kb", "mp4");
    assert "foo" + "_512kb" + "." + "mp4" == "foo_512kb.mp4";
  }

  /** No media extension ends in `stt`, `vtt` or `txt`. */
  lemma MediaExtensionEnding(e: string)
    requires e in MediaExtensions
    ensures |e| >= 3 && e[|e| - 3..] != "stt" && e[|e| - 3..] != "vtt" && e[|e| - 3..] != "txt"
  {
  }

  /** A matched name ends with the last three characters of its extension. */
  lemma MatchedNameEnding(name: string, p: NameParts)
    requires FullMatch(name, p)
    ensures |p.ext| >= 3 && name[|name| - 3..] == p.ext[|p.ext| - 3..]
  {
    var t := name[|p.base|..];
    MediaExtensionEnding(p.ext);
    assert EndsWith(t, "." + p.ext);
    assert t[|t| - 3..] == p.ext[|p.ext| - 3..];
  }

  /** Whether a name is a subtitle shows in its last three characters. */
  lemma NotSubtitleByEnding(name: string)
    requires |name| >= 3 && name[|name| - 3..] != "stt" && name[|name| - 3..] != "vtt"
    ensures !IsSubtitle(name)
  {
    var last := name[|name| - 3..];
    assert EndsWith(name, ".stt") ==> last == "stt";
    assert EndsWith(name, ".vtt") ==> last == "vtt";
  }

  /** A subtitle name is never taken for a media file, so the early exit
      of the selector and the media match never compete for a name. */
  lemma SubtitleIsNotMedia(name: string)
    ensures IsSubtitle(name) ==> MatchFile(name).None?
  {
    match MatchFile(name)
    case None =>
    case Some(p) =>
      MatchedNameEnding(name, p);
      MediaExtensionEnding(p.ext);
      NotSubtitleByEnding(name);
  }
}

=== FILE: paths.dfy ===
/** The paths the transcriber builds: the scratch download path keyed by
    content hash, the two subtitle paths of a descriptor, and the item
    directory `ensure_file_item_path` creates.  `path.join` and
    `path.dirname` follow Python's `posixpath`. */
module Paths {
  import opened Wrappers
  import opened Strings
  import opened Names
  import opened Selector

  /** TEMP_DIR */
  const TempDir: string := "download"

  predicate NoSlash(s: string) {
    '/' !in s
  }

  predicate AllSlashes(s: string) {
    forall i :: 0 <= i < |s| ==> s[i] == '/'
  }

  /** `posixpath.join(a, b)`: an absolute `b` replaces `a`; otherwise a
      separator is inserted unless `a` is empty or already ends in one. */
  function Join(a: string, b: string): string {
    if |b| > 0 && b[0] == '/' then b
    else if a == [] || a[|a| - 1] == '/' then a + b
    else a + "/" + b
  }

  /** `s.rstrip('/')` */
  function StripTrailingSlashes(s: string): (r: string)
    ensures |r| <= |s| && r == s[..|r|]
    ensures r == [] || r[|r| - 1] != '/'
    ensures forall j :: |r| <= j < |s| ==> s[j] == '/'
    ensures r == [] <==> AllSlashes(s)
  {
    if |s| > 0 && s[|s| - 1] == '/' then StripTrailingSlashes(s[..|s| - 1]) else s
  }

  /** `posixpath.dirname(p)`: everything up to the last separator, with
      trailing separators removed unless that leaves nothing but them. */
  function Dirname(p: string): (r: string)
    ensures |r| <= |p| && r == p[..|r|]
    ensures LastIndex(p, '/') < 0 ==> r == []
    ensures LastIndex(p, '/') >= 0 && AllSlashes(p[..LastIndex(p, '/') + 1]) ==>
              r == p[..LastIndex(p, '/') + 1]
    ensures LastIndex(p, '/') >= 0 && !AllSlashes(p[..LastIndex(p, '/') + 1]) ==>
              && 0 < |r| <= LastIndex(p, '/')
              && r[|r| - 1] != '/'
              && AllSlashes(p[|r|..LastIndex(p, '/') + 1])
    ensures NoSlash(p) ==> r == []
  {
    var head := p[..LastIndex(p, '/') + 1];
    if head != [] && !AllSlashes(head) then StripTrailingSlashes(head) else head
  }

  /** `file_download_path`: TEMP_DIR/<sha1>.<extension> */
  function DownloadPath(d: Descriptor): string {
    Join(TempDir, d.file.sha1 + "." + d.extension)
  }

  /** `file_subtitle_path(details, ext)`:
      COLLECTION_NAME/<item_id>/<base>.autogenerated.<ext> */
  function SubtitlePath(collection: string, d: Descriptor, ext: string): string {
    Join(Join(collection, d.itemId), d.base + ".autogenerated." + ext)
  }

  /** The directory `ensure_file_item_path` creates: the dirname of the
      txt subtitle path. */
  function ItemDirectory(collection: string, d: Descriptor): string {
    Dirname(SubtitlePath(collection, d, "txt"))
  }

  /** `ensure_file_item_path` on a filesystem given as its set of existing
      paths: the item directory exists afterwards and nothing else is
      added.  The empty path never exists and `makedirs('')` raises, which
      is the None result. */
  function EnsureItemDirectory(disk: set<string>, collection: string, d: Descriptor): (r: Option<set<string>>)
    ensures r.None? <==> ItemDirectory(collection, d) == ""
    ensures r.Some? ==> ItemDirectory(collection, d) in r.value && disk <= r.value
    ensures r.Some? ==> r.value <= disk + {ItemDirectory(collection, d)}
  {
    var dir := ItemDirectory(collection, d);
    if dir == "" then None
    else if dir in disk then Some(disk)
    else Some(disk + {dir})
  }

  // ---------------------------------------------------------------------

  /** Joining a longer name only lengthens the result by the extra text. */
  lemma JoinAppend(a: string, b: string, e: string)
    requires |b| > 0
    ensures Join(a, b + e) == Join(a, b) + e
  {
    assert (b + e)[0] == b[0];
  }

  /** The stem both subtitle paths of a descriptor share. */
  function SubtitleStem(collection: string, d: Descriptor): string {
    Join(Join(collection, d.itemId), d.base + ".autogenerated.")
  }

  /** Every subtitle path is the shared stem followed by its extension, so
      the txt and vtt paths differ only in their final extension, and
      different extensions never collide. */
  lemma SubtitlePathsShareStem(collection: string, d: Descriptor, e1: string, e2: string)
    ensures SubtitlePath(collection, d, e1) == SubtitleStem(collection, d) + e1
    ensures SubtitlePath(collection, d, e2) == SubtitleStem(collection, d) + e2
    ensures SubtitlePath(collection, d, e1) == SubtitlePath(collection, d, e2) <==> e1 == e2
  {
    var b := d.base + ".autogenerated.";
    JoinAppend(Join(collection, d.itemId), b, e1);
    JoinAppend(Join(collection, d.itemId), b, e2);
    assert d.base + ".autogenerated." + e1 == b + e1;
    assert d.base + ".autogenerated." + e2 == b + e2;
    var stem := SubtitleStem(collection, d);
    if stem + e1 == stem + e2 {
      assert e1 == (stem + e1)[|stem|..];
      assert e2 == (stem + e2)[|stem|..];
    }
  }

  /** The download path is TEMP_DIR/<hash>.<ext> unless the hash is itself
      absolute. */
  lemma DownloadPathShape(d: Descriptor)
    ensures var name := d.file.sha1 + "." + d.extension;
      if |d.file.sha1| > 0 && d.file.sha1[0] == '/' then DownloadPath(d) == name
      else DownloadPath(d) == TempDir + "/" + name
  {
    var name := d.file.sha1 + "." + d.extension;
    if |d.file.sha1| > 0 {
      assert name[0] == d.file.sha1[0];
    }
  }

  /** A media file's download path never ends in `.aria2`, so it is never
      the download tool's control file for another scratch copy. */
  lemma DownloadPathNotControl(d: Descriptor, other: Descriptor)
    requires d.extension in MediaExtensions
    ensures DownloadPath(d) != DownloadPath(other) + ".aria2"
  {
    DownloadPathShape(d);
    var name := d.file.sha1 + "." + d.extension;
    var p := DownloadPath(d);
    assert p[|p| - 1] == name[|name| - 1] == d.extension[|d.extension| - 1] != '2';
  }

  /** A name `h.e` with no dot in `e` splits back into `h` and `e`. */
  lemma SplitAtLastDot(h1: string, e1: string, h2: string, e2: string)
    requires forall i :: 0 <= i < |e1| ==> e1[i] != '.'
    requires forall i :: 0 <= i < |e2| ==> e2[i] != '.'
    requires h1 + "." + e1 == h2 + "." + e2
    ensures h1 == h2 && e1 == e2
  {
    var n := h1 + "." + e1;
    assert n == h1 + ['.'] + e1;
    assert n == h2 + ['.'] + e2;
    LastIndexOfSeparator(h1, '.', e1);
    LastIndexOfSeparator(h2, '.', e2);
    assert e1 == n[|h1| + 1..];
    assert e2 == n[|h2| + 1..];
    assert h1 == n[..|h1|];
    assert h2 == n[..|h2|];
  }

  /** Equal download paths come from equal file names. */
  lemma DownloadPathNames(d1: Descriptor, d2: Descriptor)
    requires DownloadPath(d1) == DownloadPath(d2)
    ensures d1.file.sha1 + "." + d1.extension == d2.file.sha1 + "." + d2.extension
  {
    var n1 := d1.file.sha1 + "." + d1.extension;
    var n2 := d2.file.sha1 + "." + d2.extension;
    DownloadPathShape(d1);
    DownloadPathShape(d2);
    var abs1 := |d1.file.sha1| > 0 && d1.file.sha1[0] == '/';
    var abs2 := |d2.file.sha1| > 0 && d2.file.sha1[0] == '/';
    assert DownloadPath(d1)[0] == '/' <==> abs1;
    assert DownloadPath(d2)[0] == '/' <==> abs2;
    if !abs1 {
      assert n1 == DownloadPath(d1)[|TempDir| + 1..];
      assert n2 == DownloadPath(d2)[|TempDir| + 1..];
    }
  }

  /** Download paths collapse exactly on identical content: two
      descriptors share a scratch file if and only if they have the same
      hash and the same extension. */
  lemma DownloadPathCollapse(d1: Descriptor, d2: Descriptor)
    requires d1.extension in MediaExtensions && d2.extension in MediaExtensions
    ensures DownloadPath(d1) == DownloadPath(d2) <==>
              (d1.file.sha1 == d2.file.sha1 && d1.extension == d2.extension)
  {
    if DownloadPath(d1) == DownloadPath(d2) {
      DownloadPathNames(d1, d2);
      assert forall i :: 0 <= i < |d1.extension| ==> d1.extension[i] != '.';
      assert forall i :: 0 <= i < |d2.extension| ==> d2.extension[i] != '.';
      SplitAtLastDot(d1.file.sha1, d1.extension, d2.file.sha1, d2.extension);
    }
  }

  /** `dirname(dir + "/" + name)` is `dir` when `name` has no separator and
      `dir` does not end in one. */
  lemma DirnameOfChild(dir: string, name: string)
    requires dir != [] && dir[|dir| - 1] != '/'
    requires NoSlash(name)
    ensures Dirname(dir + "/" + name) == dir
  {
    var p := dir + "/" + name;
    assert p == dir + ['/'] + name;
    LastIndexOfSeparator(dir, '/', name);
    var head := p[..|dir| + 1];
    assert head == dir + "/";
    assert head[|dir| - 1] != '/';
    assert StripTrailingSlashes(head) == StripTrailingSlashes(dir);
  }

  /** A plain, non-empty name joined onto anything ends with that name's
      last character, so it never ends in a separator. */
  lemma JoinPlainEnd(a: string, b: string)
    requires b != [] && NoSlash(b)
    ensures Join(a, b) != [] && Join(a, b)[|Join(a, b)| - 1] == b[|b| - 1] != '/'
  {
    assert b[0] != '/';
  }

  /** A name that starts with a relative component is appended under the
      directory with one separator. */
  lemma JoinRelative(a: string, b: string)
    requires a != [] && a[|a| - 1] != '/'
    requires b != [] && b[0] != '/'
    ensures Join(a, b) == a + "/" + b
  {
  }

  /** The file name of a subtitle has no separator when the base has none. */
  lemma SubtitleNamePlain(base: string, ext: string)
    requires NoSlash(base) && NoSlash(ext)
    ensures NoSlash(base + ".autogenerated." + ext)
    ensures (base + ".autogenerated." + ext)[0] != '/'
  {
    var name := base + ".autogenerated." + ext;
    forall i | 0 <= i < |name| ensures name[i] != '/' {
      if i < |base| { assert name[i] == base[i]; }
      else if i >= |base| + 15 { assert name[i] == ext[i - |base| - 15]; }
    }
  }

  /** For a plain item identifier and a base without separators, the
      directory `ensure_file_item_path` creates is COLLECTION/<item_id>,
      and every subtitle file lies directly inside it. */
  lemma ItemDirectoryIsParent(collection: string, d: Descriptor, ext: string)
    requires d.itemId != [] && NoSlash(d.itemId)
    requires NoSlash(d.base) && NoSlash(ext)
    ensures ItemDirectory(collection, d) == Join(collection, d.itemId)
    ensures SubtitlePath(collection, d, ext) == ItemDirectory(collection, d) + "/" + d.base + ".autogenerated." + ext
  {
    var dir := Join(collection, d.itemId);
    JoinPlainEnd(collection, d.itemId);
    var txt := d.base + ".autogenerated." + "txt";
    var name := d.base + ".autogenerated." + ext;
    SubtitleNamePlain(d.base, "txt");
    SubtitleNamePlain(d.base, ext);
    JoinRelative(dir, txt);
    JoinRelative(dir, name);
    assert SubtitlePath(collection, d, "txt") == dir + "/" + txt;
    DirnameOfChild(dir, txt);
    assert ItemDirectory(collection, d) == dir;
    assert SubtitlePath(collection, d, ext) == dir + "/" + name;
  }

  /** A descriptor's scratch download never coincides with one of its
      subtitle files, since no media extension ends in `txt` or `vtt`. */
  lemma DownloadIsNotSubtitle(collection: string, d: Descriptor)
    requires d.extension in MediaExtensions
    ensures DownloadPath(d) != SubtitlePath(collection, d, "vtt")
    ensures DownloadPath(d) != SubtitlePath(collection, d, "txt")
  {
    DownloadPathShape(d);
    SubtitlePathsShareStem(collection, d, "vtt", "txt");
    MediaExtensionEnding(d.extension);
    var dl := DownloadPath(d);
    var tail := d.extension[|d.extension| - 3..];
    assert dl[|dl| - 3..] == tail;
    var vtt := SubtitlePath(collection, d, "vtt");
    var txt := SubtitlePath(collection, d, "txt");
    assert vtt[|vtt| - 3..] == "vtt";
    assert txt[|txt| - 3..] == "txt";
  }
}

=== FILE: pipeline.dfy ===
/** The workers together: the enumerator's item queue, the item workers,
    the transcription queue and the file workers, as one state machine
    whose steps are single loop turns of one worker, in any interleaving.
    Each turn is taken as atomic. */
module Pipeline {
  import opened Names
  import opened Selector
  import opened Paths
  import opened Buffer
  import opened Enumerator
  import opened Acquisition
  import opened Transcription

  /** WHISPER_WORKERS */
  const WhisperWorkers: nat := 2

  /** The shared counter and queues, the filesystem, how many workers of
      each kind are still running, and the charge left on the counter by
      files whose worker died while handling them. */
  datatype System = System(stage: Stage, items: seq<string>, disk: set<string>,
                           itemWorkers: nat, fileWorkers: nat, stranded: nat)

  /** A loop turn of some item worker, together with which of its fetches
      raise on this turn, or of some file worker, together with the outcome
      of its transcription. */
  datatype Event = ItemWorkerTurn(raises: Descriptor -> bool) | FileWorkerTurn(transcribed: bool)

  /** The start: a zero counter, empty transcription queue, the item queue
      as the enumerator fills it, and every worker running. */
  function Start(ids: seq<string>, disk: set<string>): System {
    System(Stage(0, [], []), Enumerate(ids), disk, ItemWorkers, WhisperWorkers, 0)
  }

  /** The counter is the charge of the queued files plus the stranded
      charge. */
  predicate Accounted(sys: System) {
    sys.stage.counter == Buffered(sys.stage.transcriptionQueue) + sys.stranded
  }

  function Step(sys: System, collection: string, catalog: string -> seq<FileRecord>, e: Event): System
  {
    match e
    case ItemWorkerTurn(raises) =>
      if sys.itemWorkers == 0 then sys
      else
        (match ItemStep(sys.stage, sys.items, collection, sys.disk, catalog, raises)
         case Throttled => sys
         case Starved => sys
         case Stopped(rest) => sys.(items := rest, itemWorkers := sys.itemWorkers - 1)
         case Worked(stage, rest) =>
           sys.(stage := stage, items := rest,
                disk := AfterFetches(collection, sys.disk, ItemFiles(sys.items[0], catalog(sys.items[0])), raises)))
    case FileWorkerTurn(transcribed) =>
      if sys.fileWorkers == 0 then sys
      else
        match HandleFile(sys.stage, collection, sys.disk, transcribed)
        case Idle => sys
        case Handled(stage, disk) => sys.(stage := stage, disk := disk)
        case Crashed(stage, disk) =>
          sys.(stage := stage, disk := disk, fileWorkers := sys.fileWorkers - 1,
               stranded := sys.stranded + Charge(sys.stage.transcriptionQueue[0].file.length))
  }

  /** An item turn records the scratch copies its fetches made: once an
      item's fetch of a file went through, a later acquisition of a file
      with the same hash and extension finds the complete copy and does not
      fetch it; unless that file has local subtitles, it is charged and
      queued. */
  lemma ItemTurnKeepsCopies(sys: System, collection: string, catalog: string -> seq<FileRecord>,
                            raises: Descriptor -> bool, d: Descriptor, later: Descriptor, s: Stage, again: bool)
    requires sys.itemWorkers > 0 && ItemStep(sys.stage, sys.items, collection, sys.disk, catalog, raises).Worked?
    requires d in ItemFiles(sys.items[0], catalog(sys.items[0]))
    requires Fetches(collection, sys.disk, d) && !raises(d)
    requires later.file.sha1 == d.file.sha1 && later.extension == d.extension
    ensures var n := Step(sys, collection, catalog, ItemWorkerTurn(raises));
      var r := AcquireFile(s, collection, n.disk, later, again);
      && DownloadPath(later) in n.disk
      && r.attempted == s.attempted
      && (!HasLocalSubtitles(collection, n.disk, later) ==>
            r.transcriptionQueue == s.transcriptionQueue + [later] && r.counter == s.counter + Charge(later.file.length))
  {
    var files := ItemFiles(sys.items[0], catalog(sys.items[0]));
    ItemFilesWellFormed(sys.items[0], catalog(sys.items[0]));
    FetchedCopyReused(collection, sys.disk, files, raises, d, later);
  }

  /** A media file's scratch copy, once on disk, stays there through every
      turn except the file worker turn that handles a file with that same
      download path: item turns only add copies and remove `.aria2` control
      files, and a file worker deletes only the copy of the file it took. */
  lemma StepKeepsDownloads(sys: System, collection: string, catalog: string -> seq<FileRecord>, e: Event, p: Descriptor)
    requires p.extension in MediaExtensions && DownloadPath(p) in sys.disk
    ensures var n := Step(sys, collection, catalog, e);
      || DownloadPath(p) in n.disk
      || (&& e.FileWorkerTurn? && e.transcribed
          && sys.stage.transcriptionQueue != []
          && DownloadPath(sys.stage.transcriptionQueue[0]) == DownloadPath(p))
  {
    match e
    case ItemWorkerTurn(raises) =>
      if sys.itemWorkers > 0 && ItemStep(sys.stage, sys.items, collection, sys.disk, catalog, raises).Worked? {
        var files := ItemFiles(sys.items[0], catalog(sys.items[0]));
        forall f | f in files && Fetches(collection, sys.disk, f) && !raises(f)
          ensures DownloadPath(p) != DownloadPath(f) + ".aria2"
        {
          DownloadPathNotControl(p, f);
        }
      }
    case FileWorkerTurn(transcribed) =>
  }

  function Run(sys: System, collection: string, catalog: string -> seq<FileRecord>, events: seq<Event>): System
    decreases |events|
  {
    if events == [] then sys
    else Run(Step(sys, collection, catalog, events[0]), collection, catalog, events[1..])
  }

  /** Every turn keeps the counter accounted for; only a file worker's
      death adds to the stranded charge, and then by that file's charge. */
  lemma StepAccounted(sys: System, collection: string, catalog: string -> seq<FileRecord>, e: Event)
    requires Accounted(sys)
    ensures var n := Step(sys, collection, catalog, e);
      && Accounted(n)
      && n.stranded >= sys.stranded
      && (n.stranded > sys.stranded ==> n.fileWorkers < sys.fileWorkers)
  {
    var a := sys.stage;
    match e
    case ItemWorkerTurn(raises) =>
      if sys.itemWorkers > 0 && ItemStep(a, sys.items, collection, sys.disk, catalog, raises).Worked? {
        var files := ItemFiles(sys.items[0], catalog(sys.items[0]));
        ProcessItemQueues(a, collection, sys.disk, files, raises);
        BufferedConcat(a.transcriptionQueue, Queued(collection, sys.disk, files, raises));
      }
    case FileWorkerTurn(transcribed) =>
      if a.transcriptionQueue != [] {
        BufferedFront(a.transcriptionQueue);
        HandleFileAccounts(a, collection, sys.disk, transcribed);
      }
  }

  /** Any interleaving of turns keeps the counter accounted for, and the
      stranded charge never shrinks. */
  lemma {:induction false} RunAccounted(sys: System, collection: string, catalog: string -> seq<FileRecord>,
                                        events: seq<Event>)
    requires Accounted(sys)
    ensures Accounted(Run(sys, collection, catalog, events))
    ensures Run(sys, collection, catalog, events).stranded >= sys.stranded
    decreases |events|
  {
    if events != [] {
      StepAccounted(sys, collection, catalog, events[0]);
      RunAccounted(Step(sys, collection, catalog, events[0]), collection, catalog, events[1..]);
    }
  }

  /** From the start, in any interleaving, the counter is exactly the
      charge of the files waiting for transcription plus the charge
      stranded by file workers that died; in particular it never goes
      negative. */
  lemma CounterFromStart(ids: seq<string>, disk: set<string>, collection: string,
                         catalog: string -> seq<FileRecord>, events: seq<Event>)
    ensures var sys := Run(Start(ids, disk), collection, catalog, events);
      && sys.stage.counter == Buffered(sys.stage.transcriptionQueue) + sys.stranded
      && sys.stage.counter >= 0
  {
    assert Buffered([]) == 0;
    RunAccounted(Start(ids, disk), collection, catalog, events);
  }
}

=== FILE: selector.dfy ===
/** The file selector `item_files`: from one item's file listing, pick one
    media file per base name, or nothing at all when the item already
    carries subtitles. */
module Selector {
  import opened Wrappers
  import opened Names

  /** One entry of an item's file listing, reduced to the fields the
      transcriber reads.  `length` is the declared duration already
      floored, or None when `floor(float(length))` raises. */
  datatype FileRecord = FileRecord(name: string, size: int, sha1: string, length: Option<nat>)

  /** A selected file: the listing entry together with the three keys
      `item_files` writes into it. */
  datatype Descriptor = Descriptor(file: FileRecord, itemId: string, base: string, extension: string)

  /** A name matcher: FILE_REGEX in the transcriber.  The loop and its
      invariant are stated for any matcher, so that the proofs about the
      loop do not depend on how the pattern is evaluated. */
  type Matcher = string -> Option<NameParts>

  /** `f`'s name matches with base group `b`. */
  predicate HasBase(parse: Matcher, f: FileRecord, b: string) {
    parse(f.name).Some? && parse(f.name).value.base == b
  }

  /** `d` is what `item_files` makes of file `f` of item `id`: the same
      entry, the item's identifier, and the two groups of the match. */
  predicate Describes(parse: Matcher, d: Descriptor, id: string, f: FileRecord) {
    && d.file == f
    && d.itemId == id
    && parse(f.name) == Some(NameParts(d.base, d.extension))
  }

  /** Position of base `b` in the insertion-ordered `bases` dictionary,
      or `|acc|` when the key is absent. */
  function IndexOfBase(acc: seq<Descriptor>, b: string): (i: nat)
    ensures i <= |acc|
    ensures i < |acc| ==> acc[i].base == b
    ensures forall j :: 0 <= j < i ==> acc[j].base != b
  {
    if |acc| == 0 then 0
    else if acc[0].base == b then 0
    else 1 + IndexOfBase(acc[1..], b)
  }

  /** The dictionary holds a descriptor for base `b`. */
  predicate Covers(acc: seq<Descriptor>, b: string) {
    IndexOfBase(acc, b) < |acc|
  }

  /** One turn of the loop for a file that is not a subtitle: a new base
      is appended; a known base is replaced in place only by a strictly
      smaller file; a name FILE_REGEX rejects is ignored. */
  function Offer(parse: Matcher, acc: seq<Descriptor>, id: string, f: FileRecord): seq<Descriptor> {
    match parse(f.name)
    case None => acc
    case Some(p) =>
      var i := IndexOfBase(acc, p.base);
      var d := Descriptor(f, id, p.base, p.ext);
      if i == |acc| then acc + [d]
      else if f.size < acc[i].file.size then acc[i := d]
      else acc
  }

  /** The loop of `item_files` from file `n` on, with `acc` the values of
      `bases` so far; the first subtitle file ends it with no result. */
  function Scan(parse: Matcher, id: string, files: seq<FileRecord>, n: nat, acc: seq<Descriptor>): seq<Descriptor>
    requires n <= |files|
    decreases |files| - n
  {
    if n == |files| then acc
    else if IsSubtitle(files[n].name) then []
    else Scan(parse, id, files, n + 1, Offer(parse, acc, id, files[n]))
  }

  /** `item_files(item)` for item `id` with listing `files`. */
  function ItemFiles(id: string, files: seq<FileRecord>): seq<Descriptor> {
    Scan(MatchFile, id, files, 0, [])
  }

  // ---------------------------------------------------------------------
  // What the selection means, independently of how the loop computes it.

  ghost predicate HasSubtitle(files: seq<FileRecord>) {
    exists j :: 0 <= j < |files| && IsSubtitle(files[j].name)
  }

  /** Among the first `n` files, `files[w]` is the earliest of the
      smallest files whose base is `b`. */
  ghost predicate IsBest(parse: Matcher, files: seq<FileRecord>, n: nat, b: string, w: nat)
    requires n <= |files|
  {
    && w < n
    && HasBase(parse, files[w], b)
    && (forall j :: 0 <= j < n && HasBase(parse, files[j], b) ==> files[w].size <= files[j].size)
    && (forall j :: 0 <= j < w && HasBase(parse, files[j], b) ==> files[w].size < files[j].size)
  }

  /** Index of the first of the first `n` files whose base is `b`, or `n`. */
  function FirstIndex(parse: Matcher, files: seq<FileRecord>, n: nat, b: string): (r: nat)
    requires n <= |files|
    ensures r <= n
    ensures r < n ==> HasBase(parse, files[r], b)
    ensures forall j :: 0 <= j < r ==> !HasBase(parse, files[j], b)
  {
    if n == 0 then 0
    else
      var k := FirstIndex(parse, files, n - 1, b);
      if k < n - 1 then k
      else if HasBase(parse, files[n - 1], b) then n - 1
      else n
  }

  /** `d` is made from the earliest smallest file of its base in the whole
      listing. */
  ghost predicate FromBestFile(parse: Matcher, id: string, files: seq<FileRecord>, d: Descriptor) {
    exists w: nat :: IsBest(parse, files, |files|, d.base, w) && Describes(parse, d, id, files[w])
  }

  /** `r` is the right answer for a listing without subtitles: one
      descriptor per base, each built from the earliest smallest file of
      its base, every matching base present, in order of first appearance. */
  ghost predicate Selection(parse: Matcher, id: string, files: seq<FileRecord>, r: seq<Descriptor>) {
    && DistinctBases(r)
    && (forall i :: 0 <= i < |r| ==> FromBestFile(parse, id, files, r[i]))
    && CoversPrefix(parse, files, |files|, r)
    && InFirstSeenOrder(parse, files, |files|, r)
  }

  /** No base is held twice. */
  ghost predicate DistinctBases(acc: seq<Descriptor>) {
    forall i, k :: 0 <= i < k < |acc| ==> acc[i].base != acc[k].base
  }

  /** Entry `i` is built from file `ws[i]`, the best of its base so far. */
  ghost predicate BuiltFromBest(parse: Matcher, id: string, files: seq<FileRecord>, n: nat, acc: seq<Descriptor>, ws: seq<nat>)
    requires n <= |files|
  {
    && |ws| == |acc|
    && (forall i :: 0 <= i < |acc| ==>
          IsBest(parse, files, n, acc[i].base, ws[i]) && Describes(parse, acc[i], id, files[ws[i]]))
  }

  /** Every base among the first `n` files is held. */
  ghost predicate CoversPrefix(parse: Matcher, files: seq<FileRecord>, n: nat, acc: seq<Descriptor>)
    requires n <= |files|
  {
    forall j :: 0 <= j < n && parse(files[j].name).Some? ==> Covers(acc, parse(files[j].name).value.base)
  }

  /** Bases are held in order of their first appearance. */
  ghost predicate InFirstSeenOrder(parse: Matcher, files: seq<FileRecord>, n: nat, acc: seq<Descriptor>)
    requires n <= |files|
  {
    forall i, k :: 0 <= i < k < |acc| ==>
      FirstIndex(parse, files, n, acc[i].base) < FirstIndex(parse, files, n, acc[k].base)
  }

  /** The loop invariant: `acc` is the selection among the first `n`
      files, with `ws` naming the file behind each entry. */
  ghost predicate Partial(parse: Matcher, id: string, files: seq<FileRecord>, n: nat, acc: seq<Descriptor>, ws: seq<nat>)
    requires n <= |files|
  {
    && DistinctBases(acc)
    && BuiltFromBest(parse, id, files, n, acc, ws)
    && CoversPrefix(parse, files, n, acc)
    && InFirstSeenOrder(parse, files, n, acc)
  }

  lemma IndexOfBaseAppend(acc: seq<Descriptor>, d: Descriptor, b: string)
    ensures Covers(acc, b) ==> IndexOfBase(acc + [d], b) == IndexOfBase(acc, b)
    ensures !Covers(acc, b) && d.base == b ==> IndexOfBase(acc + [d], b) == |acc|
  {
    var s := acc + [d];
    var m := IndexOfBase(acc, b);
    var m' := IndexOfBase(s, b);
    if m < |acc| {
      assert s[m] == acc[m];
      assert m' <= m;
    } else {
      assert s[|acc|] == d;
      assert forall j :: 0 <= j < |acc| ==> s[j] == acc[j];
    }
  }

  lemma IndexOfBaseSameBases(a1: seq<Descriptor>, a2: seq<Descriptor>, b: string)
    requires |a1| == |a2|
    requires forall i :: 0 <= i < |a1| ==> a1[i].base == a2[i].base
    ensures IndexOfBase(a1, b) == IndexOfBase(a2, b)
  {
    var m1 := IndexOfBase(a1, b);
    var m2 := IndexOfBase(a2, b);
    assert m1 < |a1| ==> m2 <= m1;
    assert m2 < |a2| ==> m1 <= m2;
  }

  /** A file of another base, or a file no smaller, leaves the best file
      of base `b` in place. */
  lemma IsBestExtend(parse: Matcher, files: seq<FileRecord>, n: nat, b: string, w: nat)
    requires n < |files|
    requires IsBest(parse, files, n, b, w)
    requires HasBase(parse, files[n], b) ==> files[w].size <= files[n].size
    ensures IsBest(parse, files, n + 1, b, w)
  {
  }

  /** Bases already held keep their first index when a file is added. */
  lemma FirstIndexStable(parse: Matcher, files: seq<FileRecord>, n: nat, b: string, w: nat)
    requires n < |files|
    requires w < n && HasBase(parse, files[w], b)
    ensures FirstIndex(parse, files, n + 1, b) == FirstIndex(parse, files, n, b) < n
  {
  }

  /** A file whose name does not match leaves the invariant as it is. */
  lemma OfferIgnored(parse: Matcher, id: string, files: seq<FileRecord>, n: nat, acc: seq<Descriptor>, ws: seq<nat>)
    requires n < |files| && parse(files[n].name).None?
    requires Partial(parse, id, files, n, acc, ws)
    ensures Partial(parse, id, files, n + 1, acc, ws)
  {
    forall i | 0 <= i < |acc|
      ensures IsBest(parse, files, n + 1, acc[i].base, ws[i])
    {
      IsBestExtend(parse, files, n, acc[i].base, ws[i]);
    }
    SameBasesStep(parse, id, files, n, acc, ws, acc);
  }

  /** Appending a file of a new base: the new entry is the best of its
      base, and the old entries keep theirs. */
  lemma OfferNewBuilt(parse: Matcher, id: string, files: seq<FileRecord>, n: nat, acc: seq<Descriptor>, ws: seq<nat>)
    requires n < |files| && parse(files[n].name).Some?
    requires !Covers(acc, parse(files[n].name).value.base)
    requires Partial(parse, id, files, n, acc, ws)
    ensures BuiltFromBest(parse, id, files, n + 1,
                          acc + [Descriptor(files[n], id, parse(files[n].name).value.base, parse(files[n].name).value.ext)],
                          ws + [n])
  {
    var f := files[n];
    var p := parse(f.name).value;
    var acc' := acc + [Descriptor(f, id, p.base, p.ext)];
    var ws' := ws + [n];
    assert forall j :: 0 <= j < n ==> !HasBase(parse, files[j], p.base);
    assert IsBest(parse, files, n + 1, p.base, n);
    forall i | 0 <= i < |acc'|
      ensures IsBest(parse, files, n + 1, acc'[i].base, ws'[i]) && Describes(parse, acc'[i], id, files[ws'[i]])
    {
      if i < |acc| {
        assert acc'[i] == acc[i] && ws'[i] == ws[i];
        IsBestExtend(parse, files, n, acc[i].base, ws[i]);
      }
    }
  }

  /** Appending a file of a new base keeps every base covered. */
  lemma OfferNewCovers(parse: Matcher, id: string, files: seq<FileRecord>, n: nat, acc: seq<Descriptor>, ws: seq<nat>)
    requires n < |files| && parse(files[n].name).Some?
    requires !Covers(acc, parse(files[n].name).value.base)
    requires Partial(parse, id, files, n, acc, ws)
    ensures CoversPrefix(parse, files, n + 1,
                         acc + [Descriptor(files[n], id, parse(files[n].name).value.base, parse(files[n].name).value.ext)])
  {
    var p := parse(files[n].name).value;
    var d := Descriptor(files[n], id, p.base, p.ext);
    forall j | 0 <= j < n + 1 && parse(files[j].name).Some?
      ensures Covers(acc + [d], parse(files[j].name).value.base)
    {
      IndexOfBaseAppend(acc, d, parse(files[j].name).value.base);
    }
  }

  /** Appending a file of a new base keeps the bases distinct and in order
      of first appearance: the new base appears last. */
  lemma OfferNewOrdered(parse: Matcher, id: string, files: seq<FileRecord>, n: nat, acc: seq<Descriptor>, ws: seq<nat>)
    requires n < |files| && parse(files[n].name).Some?
    requires !Covers(acc, parse(files[n].name).value.base)
    requires Partial(parse, id, files, n, acc, ws)
    ensures var acc' := acc + [Descriptor(files[n], id, parse(files[n].name).value.base, parse(files[n].name).value.ext)];
      DistinctBases(acc') && InFirstSeenOrder(parse, files, n + 1, acc')
  {
    var p := parse(files[n].name).value;
    var b := p.base;
    var acc' := acc + [Descriptor(files[n], id, b, p.ext)];
    assert forall j :: 0 <= j < n ==> !HasBase(parse, files[j], b);
    assert FirstIndex(parse, files, n + 1, b) == n;
    forall i | 0 <= i < |acc|
      ensures FirstIndex(parse, files, n + 1, acc[i].base) == FirstIndex(parse, files, n, acc[i].base) < n
      ensures acc[i].base != b
    {
      FirstIndexStable(parse, files, n, acc[i].base, ws[i]);
    }
    forall i, k | 0 <= i < k < |acc'|
      ensures acc'[i].base != acc'[k].base
      ensures FirstIndex(parse, files, n + 1, acc'[i].base) < FirstIndex(parse, files, n + 1, acc'[k].base)
    {
      assert acc'[i] == acc[i];
      if k < |acc| {
        assert acc'[k] == acc[k];
      }
    }
  }

  /** A file with a base not seen before is appended. */
  lemma OfferNew(parse: Matcher, id: string, files: seq<FileRecord>, n: nat, acc: seq<Descriptor>, ws: seq<nat>)
    requires n < |files| && parse(files[n].name).Some?
    requires !Covers(acc, parse(files[n].name).value.base)
    requires Partial(parse, id, files, n, acc, ws)
    ensures Partial(parse, id, files, n + 1, Offer(parse, acc, id, files[n]), ws + [n])
  {
    var p := parse(files[n].name).value;
    assert Offer(parse, acc, id, files[n]) == acc + [Descriptor(files[n], id, p.base, p.ext)];
    OfferNewBuilt(parse, id, files, n, acc, ws);
    OfferNewCovers(parse, id, files, n, acc, ws);
    OfferNewOrdered(parse, id, files, n, acc, ws);
  }

  /** The replacing file is the best of its base, and every other entry
      keeps its best file. */
  lemma SmallerIsBest(parse: Matcher, id: string, files: seq<FileRecord>, n: nat, acc: seq<Descriptor>, ws: seq<nat>, m: nat)
    requires n < |files| && parse(files[n].name).Some?
    requires m < |acc| && acc[m].base == parse(files[n].name).value.base
    requires files[n].size < acc[m].file.size
    requires DistinctBases(acc) && BuiltFromBest(parse, id, files, n, acc, ws)
    ensures BuiltFromBest(parse, id, files, n + 1,
                          acc[m := Descriptor(files[n], id, acc[m].base, parse(files[n].name).value.ext)],
                          ws[m := n])
  {
    var b := acc[m].base;
    var acc' := acc[m := Descriptor(files[n], id, b, parse(files[n].name).value.ext)];
    var ws' := ws[m := n];
    assert acc[m].file == files[ws[m]];
    assert IsBest(parse, files, n + 1, b, n);
    forall i | 0 <= i < |acc'|
      ensures IsBest(parse, files, n + 1, acc'[i].base, ws'[i]) && Describes(parse, acc'[i], id, files[ws'[i]])
    {
      if i != m {
        IsBestExtend(parse, files, n, acc[i].base, ws[i]);
      }
    }
  }

  /** Replacing entries by entries of the same bases keeps the bases
      distinct, covering and in order, when the added file's base (if it
      has one) is already held. */
  lemma SameBasesStep(parse: Matcher, id: string, files: seq<FileRecord>, n: nat,
                      acc: seq<Descriptor>, ws: seq<nat>, acc': seq<Descriptor>)
    requires n < |files|
    requires |acc'| == |acc|
    requires forall i :: 0 <= i < |acc| ==> acc'[i].base == acc[i].base
    requires parse(files[n].name).Some? ==> Covers(acc, parse(files[n].name).value.base)
    requires Partial(parse, id, files, n, acc, ws)
    ensures DistinctBases(acc')
    ensures CoversPrefix(parse, files, n + 1, acc')
    ensures InFirstSeenOrder(parse, files, n + 1, acc')
  {
    forall c
      ensures IndexOfBase(acc', c) == IndexOfBase(acc, c)
    {
      IndexOfBaseSameBases(acc', acc, c);
    }
    forall i | 0 <= i < |acc|
      ensures FirstIndex(parse, files, n + 1, acc[i].base) == FirstIndex(parse, files, n, acc[i].base)
    {
      FirstIndexStable(parse, files, n, acc[i].base, ws[i]);
    }
  }

  /** A strictly smaller file of a known base takes that base's place. */
  lemma OfferSmaller(parse: Matcher, id: string, files: seq<FileRecord>, n: nat, acc: seq<Descriptor>, ws: seq<nat>)
    requires n < |files| && parse(files[n].name).Some?
    requires Covers(acc, parse(files[n].name).value.base)
    requires files[n].size < acc[IndexOfBase(acc, parse(files[n].name).value.base)].file.size
    requires Partial(parse, id, files, n, acc, ws)
    ensures Partial(parse, id, files, n + 1, Offer(parse, acc, id, files[n]),
                    ws[IndexOfBase(acc, parse(files[n].name).value.base) := n])
  {
    var f := files[n];
    var p := parse(f.name).value;
    var m := IndexOfBase(acc, p.base);
    var acc' := acc[m := Descriptor(f, id, p.base, p.ext)];
    assert Offer(parse, acc, id, f) == acc';
    assert acc[m].base == p.base;
    assert forall i :: 0 <= i < |acc| ==> acc'[i].base == acc[i].base;
    SmallerIsBest(parse, id, files, n, acc, ws, m);
    SameBasesStep(parse, id, files, n, acc, ws, acc');
    assert DistinctBases(acc') && CoversPrefix(parse, files, n + 1, acc') && InFirstSeenOrder(parse, files, n + 1, acc');
    assert BuiltFromBest(parse, id, files, n + 1, acc', ws[m := n]);
  }

  /** A file of a known base that is not strictly smaller changes nothing. */
  lemma OfferNotSmaller(parse: Matcher, id: string, files: seq<FileRecord>, n: nat, acc: seq<Descriptor>, ws: seq<nat>)
    requires n < |files| && parse(files[n].name).Some?
    requires Covers(acc, parse(files[n].name).value.base)
    requires files[n].size >= acc[IndexOfBase(acc, parse(files[n].name).value.base)].file.size
    requires Partial(parse, id, files, n, acc, ws)
    ensures Partial(parse, id, files, n + 1, Offer(parse, acc, id, files[n]), ws)
  {
    var b := parse(files[n].name).value.base;
    var m := IndexOfBase(acc, b);
    assert Offer(parse, acc, id, files[n]) == acc;
    assert acc[m].file == files[ws[m]];
    forall i | 0 <= i < |acc|
      ensures IsBest(parse, files, n + 1, acc[i].base, ws[i])
    {
      IsBestExtend(parse, files, n, acc[i].base, ws[i]);
    }
    SameBasesStep(parse, id, files, n, acc, ws, acc);
  }

  /** One more file keeps the invariant. */
  lemma OfferStep(parse: Matcher, id: string, files: seq<FileRecord>, n: nat, acc: seq<Descriptor>, ws: seq<nat>)
    returns (ws': seq<nat>)
    requires n < |files|
    requires Partial(parse, id, files, n, acc, ws)
    ensures Partial(parse, id, files, n + 1, Offer(parse, acc, id, files[n]), ws')
  {
    match parse(files[n].name)
    case None =>
      OfferIgnored(parse, id, files, n, acc, ws);
      ws' := ws;
    case Some(p) =>
      var m := IndexOfBase(acc, p.base);
      if m == |acc| {
        OfferNew(parse, id, files, n, acc, ws);
        ws' := ws + [n];
      } else if files[n].size < acc[m].file.size {
        OfferSmaller(parse, id, files, n, acc, ws);
        ws' := ws[m := n];
      } else {
        OfferNotSmaller(parse, id, files, n, acc, ws);
        ws' := ws;
      }
  }

  /** At the end of the listing the invariant is the selection. */
  lemma PartialIsSelection(parse: Matcher, id: string, files: seq<FileRecord>, acc: seq<Descriptor>, ws: seq<nat>)
    requires Partial(parse, id, files, |files|, acc, ws)
    ensures Selection(parse, id, files, acc)
  {
    assert DistinctBases(acc) && CoversPrefix(parse, files, |files|, acc) && InFirstSeenOrder(parse, files, |files|, acc);
    assert BuiltFromBest(parse, id, files, |files|, acc, ws);
    forall i | 0 <= i < |acc|
      ensures FromBestFile(parse, id, files, acc[i])
    {
      var w := ws[i];
      assert IsBest(parse, files, |files|, acc[i].base, w) && Describes(parse, acc[i], id, files[w]);
    }
  }

  /** The rest of the loop either meets a subtitle and returns nothing, or
      finishes with the full selection. */
  lemma {:induction false} ScanSelects(parse: Matcher, id: string, files: seq<FileRecord>, n: nat, acc: seq<Descriptor>, ws: seq<nat>)
    requires n <= |files|
    requires Partial(parse, id, files, n, acc, ws)
    decreases |files| - n
    ensures (exists j :: n <= j < |files| && IsSubtitle(files[j].name)) ==> Scan(parse, id, files, n, acc) == []
    ensures (forall j :: n <= j < |files| ==> !IsSubtitle(files[j].name)) ==> Selection(parse, id, files, Scan(parse, id, files, n, acc))
  {
    if n == |files| {
      assert Scan(parse, id, files, n, acc) == acc;
      PartialIsSelection(parse, id, files, acc, ws);
    } else if IsSubtitle(files[n].name) {
      assert Scan(parse, id, files, n, acc) == [];
    } else {
      var acc' := Offer(parse, acc, id, files[n]);
      var ws' := OfferStep(parse, id, files, n, acc, ws);
      assert Scan(parse, id, files, n, acc) == Scan(parse, id, files, n + 1, acc');
      ScanSelects(parse, id, files, n + 1, acc', ws');
    }
  }

  /** `item_files` rejects an item with any subtitle file, wherever it
      stands in the listing, and otherwise returns exactly the selection:
      at most one descriptor per base, carrying the item's identifier and
      the match's groups, built from the smallest file of that base (the
      earliest on ties), every matching base present, in order of first
      appearance, and nothing from names FILE_REGEX rejects. */
  lemma ItemFilesSpec(id: string, files: seq<FileRecord>)
    ensures HasSubtitle(files) ==> ItemFiles(id, files) == []
    ensures !HasSubtitle(files) ==> Selection(MatchFile, id, files, ItemFiles(id, files))
  {
    ScanSelects(MatchFile, id, files, 0, [], []);
  }

  /** Every descriptor `item_files` returns carries the item's identifier
      and one of the media extensions. */
  lemma ItemFilesWellFormed(id: string, files: seq<FileRecord>)
    ensures forall d :: d in ItemFiles(id, files) ==> d.itemId == id && d.extension in MediaExtensions
  {
    ItemFilesSpec(id, files);
    var r := ItemFiles(id, files);
    forall d | d in r
      ensures d.itemId == id && d.extension in MediaExtensions
    {
      var i :| 0 <= i < |r| && r[i] == d;
      assert FromBestFile(MatchFile, id, files, r[i]);
      var w: nat :| IsBest(MatchFile, files, |files|, r[i].base, w) && Describes(MatchFile, r[i], id, files[w]);
      assert MatchFile(files[w].name) == Some(NameParts(d.base, d.extension));
    }
  }

  /** Two files of one base, whatever their extensions and in either
      order: the strictly smaller one is the only descriptor, with its own
      extension. */
  lemma {:induction false} DedupPair(parse: Matcher, id: string, big: FileRecord, small: FileRecord)
    requires parse(big.name).Some? && parse(small.name).Some?
    requires parse(big.name).value.base == parse(small.name).value.base
    requires !IsSubtitle(big.name) && !IsSubtitle(small.name)
    requires small.size < big.size
    ensures var d := Descriptor(small, id, parse(small.name).value.base, parse(small.name).value.ext);
      && Scan(parse, id, [big, small], 0, []) == [d]
      && Scan(parse, id, [small, big], 0, []) == [d]
  {
    var pb := parse(big.name).value;
    var ps := parse(small.name).value;
    var d := Descriptor(small, id, ps.base, ps.ext);
    var files := [big, small];
    var acc1 := Offer(parse, [], id, big);
    assert acc1 == [Descriptor(big, id, pb.base, pb.ext)];
    assert IndexOfBase(acc1, ps.base) == 0;
    assert Scan(parse, id, files, 1, acc1) == Scan(parse, id, files, 2, Offer(parse, acc1, id, small));
    var files' := [small, big];
    var acc1' := Offer(parse, [], id, small);
    assert acc1' == [d];
    assert IndexOfBase(acc1', pb.base) == 0;
    assert Scan(parse, id, files', 1, acc1') == Scan(parse, id, files', 2, Offer(parse, acc1', id, big));
  }

  lemma TalkMatches()
    ensures MatchFile("talk.mp4") == Some(NameParts("talk", "mp4"))
  {
    BaseRoundTrip("talk", "", "mp4");
    assert "talk" + "" + "." + "mp4" == "talk.mp4";
  }

  lemma TalkRenditionMatches()
    ensures MatchFile("talk_512kb.mp4") == Some(NameParts("talk", "mp4"))
  {
    BaseRoundTrip("talk", "_512kb", "mp4");
    assert "talk" + "_512kb" + "." + "mp4" == "talk_512kb.mp4";
  }

  lemma TalkNamesAreMedia()
    ensures !IsSubtitle("talk.mp4") && !IsSubtitle("talk_512kb.mp4")
  {
    NotSubtitleByEnding("talk.mp4");
    NotSubtitleByEnding("talk_512kb.mp4");
  }

  /** A listing with a 10 MB and an 8 MB rendition of the same talk yields
      exactly one descriptor, the 8 MB one. */
  lemma DedupExample(big: FileRecord, small: FileRecord)
    requires big == FileRecord("talk.mp4", 10_000_000, "aa", Some(600))
    requires small == FileRecord("talk_512kb.mp4", 8_000_000, "bb", Some(600))
    ensures ItemFiles("talk", [big, small]) == [Descriptor(small, "talk", "talk", "mp4")]
  {
    TalkMatches();
    TalkRenditionMatches();
    TalkNamesAreMedia();
    DedupPair(MatchFile, "talk", big, small);
  }
}

=== FILE: strings.dfy ===
/** Small string facts shared by the name matcher and the path builders. */
module Strings {

  /** `s` ends with `suffix` (Python's `str.endswith`). */
  predicate EndsWith(s: string, suffix: string) {
    |suffix| <= |s| && s[|s| - |suffix|..] == suffix
  }

  /** Index of the last occurrence of `c` in `s`, or -1 when there is none
      (Python's `str.rfind`). */
  function LastIndex(s: string, c: char): (r: int)
    ensures -1 <= r < |s|
    ensures r >= 0 ==> s[r] == c
    ensures forall j :: r < j < |s| ==> s[j] != c
  {
    if |s| == 0 then -1
    else if s[|s| - 1] == c then |s| - 1
    else LastIndex(s[..|s| - 1], c)
  }

  /** In `x + [c] + e` with no `c` inside `e`, the last `c` is the one
      written between the two parts, so the split can be recovered. */
  lemma LastIndexOfSeparator(x: string, c: char, e: string)
    requires forall i :: 0 <= i < |e| ==> e[i] != c
    ensures LastIndex(x + [c] + e, c) == |x|
  {
    var s := x + [c] + e;
    var r := LastIndex(s, c);
    assert s[|x|] == c;
    assert r >= |x|;
    assert forall j :: |x| < j < |s| ==> s[j] != c;
  }
}

=== FILE: transcription.dfy ===
/** The file worker `file_processor`: take the next queued file,
    transcribe it, write its txt and vtt subtitles next to the item's other
    subtitles, release its charge and delete its scratch copy.

    The speech engine is an outside library: whether transcription raises
    is the parameter `transcribed` (false when it raised). */
module Transcription {
  import opened Wrappers
  import opened Names
  import opened Selector
  import opened Paths
  import opened Buffer
  import opened Acquisition

  /** What one turn of the file worker's loop does. */
  datatype FileTurn =
    | Idle                                      // nothing queued
    | Crashed(stage: Stage, disk: set<string>)  // an uncaught error ended the worker
    | Handled(stage: Stage, disk: set<string>)  // the file was dealt with

  /** One turn of `file_processor` on the head of the transcription queue.

      When transcription raises, the charge is released and nothing is
      written or deleted: the scratch copy stays behind.  Otherwise the
      item directory is made, both subtitle files are written, the charge
      is released and the scratch copy removed (a missing one is ignored).
      A length that does not parse makes the release raise, and that error
      is not caught: the worker dies, with whatever it already wrote on
      disk and the file's charge still on the counter. */
  function HandleFile(s: Stage, collection: string, disk: set<string>, transcribed: bool): FileTurn {
    if s.transcriptionQueue == [] then Idle
    else
      var d := s.transcriptionQueue[0];
      var popped := s.(transcriptionQueue := s.transcriptionQueue[1..]);
      if !transcribed then
        match Release(s.counter, d.file.length)
        case None => Crashed(popped, disk)
        case Some(c) => Handled(popped.(counter := c), disk)
      else
        match EnsureItemDirectory(disk, collection, d)
        case None => Crashed(popped, disk)
        case Some(made) =>
          var written := made + {SubtitlePath(collection, d, "txt"), SubtitlePath(collection, d, "vtt")};
          match Release(s.counter, d.file.length)
          case None => Crashed(popped, written)
          case Some(c) => Handled(popped.(counter := c), written - {DownloadPath(d)})
  }

  /** The turn always takes the head of the queue when there is one, and
      releases exactly its length when it completes.  It ends the worker
      exactly when the length does not parse or, after a transcription, the
      item directory cannot be made; then the counter keeps the file's
      charge. */
  lemma HandleFileAccounts(s: Stage, collection: string, disk: set<string>, transcribed: bool)
    ensures var r := HandleFile(s, collection, disk, transcribed);
      && (r.Idle? <==> s.transcriptionQueue == [])
      && (!r.Idle? ==> r.stage.transcriptionQueue == s.transcriptionQueue[1..] && r.stage.attempted == s.attempted)
      && (r.Handled? ==>
            s.transcriptionQueue[0].file.length.Some?
            && r.stage.counter + s.transcriptionQueue[0].file.length.value == s.counter)
      && (r.Crashed? ==> r.stage.counter == s.counter)
      && (r.Crashed? <==>
            s.transcriptionQueue != []
            && (s.transcriptionQueue[0].file.length.None?
                || (transcribed && EnsureItemDirectory(disk, collection, s.transcriptionQueue[0]).None?)))
  {
  }

  /** A completed turn keeps the counter in balance with the queue; a
      crash leaves exactly the crashed file's charge on the counter with
      nothing queued to account for it. */
  lemma HandleFileBalanced(s: Stage, collection: string, disk: set<string>, transcribed: bool)
    requires Balanced(s)
    ensures var r := HandleFile(s, collection, disk, transcribed);
      && (r.Handled? ==> Balanced(r.stage))
      && (r.Crashed? ==>
            r.stage.counter == Buffered(r.stage.transcriptionQueue) + Charge(s.transcriptionQueue[0].file.length))
  {
    if s.transcriptionQueue != [] {
      BufferedFront(s.transcriptionQueue);
      HandleFileAccounts(s, collection, disk, transcribed);
    }
  }

  /** When transcription raises, the disk is left as it was: no subtitles
      are written and the scratch copy is not deleted. */
  lemma FailedTranscriptionKeepsDisk(s: Stage, collection: string, disk: set<string>)
    ensures var r := HandleFile(s, collection, disk, false);
      !r.Idle? ==> r.disk == disk
  {
  }

  /** After a completed transcription of a media file both subtitles exist
      and the scratch copy is gone; nothing else is removed. */
  lemma TranscriptionWrites(s: Stage, collection: string, disk: set<string>)
    requires s.transcriptionQueue != []
    requires s.transcriptionQueue[0].extension in MediaExtensions
    ensures var d := s.transcriptionQueue[0];
      var r := HandleFile(s, collection, disk, true);
      r.Handled? ==>
        && SubtitlePath(collection, d, "vtt") in r.disk
        && SubtitlePath(collection, d, "txt") in r.disk
        && DownloadPath(d) !in r.disk
        && disk - {DownloadPath(d)} <= r.disk
  {
    var d := s.transcriptionQueue[0];
    DownloadIsNotSubtitle(collection, d);
  }

  /** Handling is what makes a later acquisition of the same file a skip:
      once transcribed, the file is never charged, queued or fetched again,
      whatever the fetch would do. */
  lemma TranscribedIsSkipped(s: Stage, collection: string, disk: set<string>, later: Stage, raises: bool)
    requires s.transcriptionQueue != []
    requires s.transcriptionQueue[0].extension in MediaExtensions
    ensures var r := HandleFile(s, collection, disk, true);
      r.Handled? ==> AcquireFile(later, collection, r.disk, s.transcriptionQueue[0], raises) == later
  {
    TranscriptionWrites(s, collection, disk);
  }

  /** Charge then release, through the two workers: a file queued on an
      empty queue and then handled leaves the counter where it started when
      its length parses.  When it does not, the file worker dies and the
      300-second guess stays on the counter. */
  lemma AcquireThenHandle(counter: int, collection: string, disk: set<string>, d: Descriptor,
                          disk2: set<string>, transcribed: bool)
    requires !HasLocalSubtitles(collection, disk, d)
    ensures var r := HandleFile(AcquireFile(Stage(counter, [], []), collection, disk, d, false), collection, disk2, transcribed);
      && !r.Idle?
      && r.stage.transcriptionQueue == []
      && (r.Handled? ==> r.stage.counter == counter)
      && (d.file.length.None? ==> r.Crashed? && r.stage.counter == counter + UnknownLengthSeconds)
  {
    var s1 := AcquireFile(Stage(counter, [], []), collection, disk, d, false);
    assert s1.transcriptionQueue == [d];
    HandleFileAccounts(s1, collection, disk2, transcribed);
  }
}

=== FILE: wrappers.dfy ===
/** Optional values: the model's stand-in for Python's "no match" and for
    a value whose parsing raised. */
module Wrappers {

  datatype Option<+T> = None | Some(value: T) {

    /** Returns the value held by Some, or `default` for None */
    function GetOr(default: T): T {
      match this
      case Some(v) => v
      case None => default
    }
  }
}
